=== FILE: README.md ===
# Row-group encoding of the parquet footer benchmark, in Dafny

The repository generates parquet files, then measures how fast their footers
parse. This project models how one of those files is produced:

- **The file parameters.** `ParquetFileSpecBuilder` collects path, file type,
  column count, row-group count and rows per row group. `build` fails on the
  first missing one. The spec's `Display` renders a one-line description.
- **The file type.** `FileType` determines the schema: `columns` nullable
  fields named `col_<i>`, of type `Float32` or `Utf8`. It also determines the
  batch of generated columns: column `i` is seeded with `seed * columns + i`.
- **`encode_row_group`.** It makes one batch of `min(rows_per_row_group, 100)`
  rows and feeds exactly `rows_per_row_group` rows of it into a
  `RowGroupEncoder`. When fewer than a whole batch remain, it slices the last
  batch short. Then it closes the encoder.
- **`RowGroupEncoder`.**
  - It has one bounded channel (capacity 2) and one task per column writer.
  - `encode_batch` sends column `j`'s array on channel `j`, in column order,
    and stops at the first failed send.
  - Each task computes the leaves of every array it receives and writes them
    to its writer. Once its channel is closed and drained, it closes the
    writer.
  - `close` drops every sender and joins the tasks in whatever order they
    complete. It then sorts the `(column_index, chunk)` pairs back into
    column order.

Modules:

- `Wrappers`: `Option` and `Result`.
- `Decimal`: the decimal text of a `usize`, with its parse-back partner.
- `Arrow`: the library values the pipeline handles, as plain data. These are
  fields, arrays, record batches with the checks of `RecordBatch::try_new`,
  `compute_leaves`, and column writers as a log of the leaves written.
- `FileTypes`: `src/file_type.rs`.
- `SpecBuilder`: the builder and the spec's `Display`.
- `ColumnOrder`: the in-place sort of `close`, and why sorting restores column
  order whatever the completion order was.
- `RowGroupEncoding`: the `RowGroupEncoder` class.
- `RowGroupDriver`: `encode_row_group`.

The encoder is a class. Its fields are:

- `queues`: each channel's buffer, with flags for whether its sender and its
  receiver still exist.
- `tasks`: each task's index, field, writer and state (receiving, panicked or
  completed with its chunk).
- Ghost fields: per column, what was sent, what was received, and the writer
  the task started with.

Its invariant `Valid` holds per column (`ColumnValid`):

- the channel holds at most 2 arrays;
- what was sent is what was received, followed by what is queued;
- a receiving task's writer holds exactly the leaves of what it received;
- a task panics only when it was sent an array of the wrong type;
- a completed task's chunk is that of everything sent to it.

The concurrency is sequential in the model. A task takes an array whenever a
send finds its channel full (`Send` calls `ReceiveOne`), and drains its
channel when the encoder is closed. The order in which `join_all` sees the
tasks complete is a parameter, `completionOrder`: any permutation of the
column indexes.

## Model

| member | source | states |
|---|---|---|
| `FileTypes.DisplayInjective` | src/file_type.rs:13-20 | `Float` displays as "Float32" and `String` as "String", and the two names differ |
| `FileTypes.Display` | src/file_type.rs:13-20 | the name written is "Float32" exactly for `Float` and "String" exactly for `String` |
| `FileTypes.Schema` | src/file_type.rs:55-70 | exactly `columns` fields; field `i` is named "col_" followed by the decimal digits of `i` and is nullable; every type is `Float32` for `Float` and `Utf8` for `String` |
| `FileTypes.ColumnNameInjective` | src/file_type.rs:59 | two column names `col_{i}` are equal if and only if their indexes are |
| `FileTypes.SchemaNamesDistinct` | src/file_type.rs:58-60 | no two fields of a schema share a name |
| `FileTypes.ArraySeedInjective` | src/file_type.rs:29 | for column indexes below `columns`, `seed * columns + i` equals `seed' * columns + j` if and only if `seed == seed'` and `i == j`: no two columns of a batch, and no column of two batches, share a seed |
| `FileTypes.GeneratedArray` | src/file_type.rs:30-47 | a generated array has the file type's data type and `num_rows` rows, row `r` being the `r`-th value drawn with the array's seed |
| `FileTypes.CreateBatch` | src/file_type.rs:23-53 | the batch fails exactly when there are no columns, with arrow's no-columns error; otherwise it is well formed against `schema(columns)`, with `num_rows` rows and `columns` arrays, array `i` generated with seed `seed * columns + i` |
| `Decimal.NatToDecimal` | src/file_type.rs:59 | the decimal text of a number is non-empty, all digits, and starts with '0' only for 0 |
| `Decimal.ParseNatToDecimal` | src/file_type.rs:59 | reading the decimal text back gives the number |
| `Decimal.NatToDecimalInjective` | src/file_type.rs:59 | different numbers have different decimal texts |
| `Arrow.FirstTypeMismatch` | src/file_type.rs:52 | finds the first column whose type differs from its field's, or none exactly when all match |
| `Arrow.TryNewBatch` | src/file_type.rs:52 | `RecordBatch::try_new` succeeds if and only if the counts agree, there is at least one column, all lengths agree and all types match, and a success is well formed and holds the given schema and columns; a count mismatch and an empty column list give their own errors; with lengths agreeing, a wrong type gives a type-mismatch error naming the first mismatched column; with types matching, a wrong length gives the length-mismatch error |
| `Arrow.Prefix` | src/parquet_file.rs:156 | a slice keeps the type, has the requested length and agrees with the array on every kept row; slicing the whole array gives it back |
| `Arrow.SliceBatch` | src/parquet_file.rs:155-159 | `batch.slice(0, len)` is well formed, keeps the schema, has `len` rows and column `i` is the prefix of column `i` |
| `Arrow.ComputeLeaves` | src/parquet_file.rs:186 | leaves are computed if and only if the array has the field's type; they hold the array's rows, all of the field's type |
| `Arrow.WriteLeaves` | src/parquet_file.rs:187-189 | writing leaves one by one leaves the writer on its column holding what it held, then the leaves in order |
| `SpecBuilder.NewBuilder` | src/parquet_file.rs:24-26 | the new builder has no parameter set |
| `SpecBuilder.WithPath` | src/parquet_file.rs:27-30 | sets the path and leaves the other four parameters as they were |
| `SpecBuilder.WithFileType` | src/parquet_file.rs:31-34 | sets the file type and leaves the other four parameters as they were |
| `SpecBuilder.WithColumns` | src/parquet_file.rs:35-38 | sets the column count and leaves the other four parameters as they were |
| `SpecBuilder.WithRowGroups` | src/parquet_file.rs:39-42 | sets the row-group count and leaves the other four parameters as they were |
| `SpecBuilder.WithRowsPerRowGroup` | src/parquet_file.rs:43-46 | sets the rows per row group and leaves the other four parameters as they were |
| `SpecBuilder.Build` | src/parquet_file.rs:47-63 | succeeds if and only if all five parameters are set, with a spec holding exactly those values; otherwise fails on the first missing one in declaration order, each of the five with its own error |
| `SpecBuilder.BuildAfterAllSetters` | src/parquet_file.rs:27-63 | from any builder, setting all five parameters then building gives exactly the spec of those five values |
| `SpecBuilder.SettersCommute` | src/parquet_file.rs:27-46 | setters of different parameters commute: all ten pairs of the five setters |
| `SpecBuilder.SettersOverride` | src/parquet_file.rs:27-46 | for each of the five setters, a later call overrides an earlier one on the same parameter |
| `SpecBuilder.DescribeInjective` | src/parquet_file.rs:76-84 | specs with the same description have the same file type, column count and row-group count |
| `SpecBuilder.Describe` | src/parquet_file.rs:76-84 | the description starts with a space followed by the file type's Debug name and ends with " row groups" |
| `ColumnOrder.InsertLast` | src/parquet_file.rs:227 | one insertion pass extends the sorted prefix by one pair and keeps the multiset of pairs |
| `ColumnOrder.SortByColumnIndex` | src/parquet_file.rs:227 | sorting in place by column index leaves the pairs sorted and a permutation of what they were |
| `ColumnOrder.PickPermutation` | src/parquet_file.rs:225 | the results listed in one completion order are a permutation of those listed in any other |
| `ColumnOrder.SortedPermutationIsColumnOrder` | src/parquet_file.rs:224-229 | a sorted permutation of the pairs in column order is that column order itself: nothing omitted, nothing duplicated, position `i` holds column `i` |
| `RowGroupEncoding.LeavesOfRows` | src/parquet_file.rs:185-189 | the leaves of the received arrays hold as many rows as the arrays |
| `RowGroupEncoding.ExpectedChunkRows` | src/parquet_file.rs:183-193 | the chunk a task returns holds the rows its writer already had plus those of every array it received |
| `RowGroupEncoding.ReceiveKeepsColumnValid` | src/parquet_file.rs:185-189 | taking a well-typed array off the channel and writing its leaves keeps the column invariant, with the array now received |
| `RowGroupEncoding.PanicKeepsColumnValid` | src/parquet_file.rs:186 | a task that meets an array of the wrong type panics, and the invariant holds with its receiver and queue gone |
| `RowGroupEncoding.SendKeepsColumnValid` | src/parquet_file.rs:211-212 | a send on a channel with room and a live receiver queues the array behind those pending, keeping the invariant |
| `RowGroupEncoding.CompleteKeepsColumnValid` | src/parquet_file.rs:190-193 | a task whose channel is closed and drained closes its writer and completes with the chunk of everything sent |
| `RowGroupEncoding.TakeArray` | src/parquet_file.rs:185-189 | one turn of the receive loop keeps the column invariant, shortens the queue, keeps the task's field and the sender; a well-typed array leaves the task receiving the rest of the queue, a wrong-typed one panics it and drops the receiver |
| `RowGroupEncoding.DropSenders` | src/parquet_file.rs:222 | every channel loses its sender and nothing else changes |
| `RowGroupEncoding.DropSendersKeepsInv` | src/parquet_file.rs:222 | dropping every sender keeps the encoder's invariant |
| `RowGroupEncoding.UpdateKeepsInv` | src/parquet_file.rs:183-194 | a step of one column's task that keeps that column's invariant keeps the encoder's: the tasks are independent |
| `RowGroupEncoding.MismatchPersists` | src/parquet_file.rs:186 | a column once sent an array of the wrong type keeps one whatever is sent after it |
| `RowGroupEncoding.ClashAfterBatch` | src/parquet_file.rs:207-216 | when some column already held a wrong array, or some array of the batch has another type than its task's field, then after the batch goes as far as it does, some column holds an array of the wrong type |
| `RowGroupEncoding.TaskPairs` | src/parquet_file.rs:193 | for tasks that hold their own column index, the pairs `(index, chunk)` they return, listed by task, are in column order |
| `RowGroupEncoding.RowGroupEncoder.constructor` | src/parquet_file.rs:175-203 | one channel (empty, both ends open) and one receiving task per column writer; task `i` holds index `i`, schema field `i` and writer `i`; the invariant holds and nothing has been sent |
| `RowGroupEncoding.RowGroupEncoder.ReceiveOne` | src/parquet_file.rs:185-189 | task `j` takes the oldest array off its channel and writes its leaves, or panics on a wrong type; every other column and everything sent are unchanged |
| `RowGroupEncoding.RowGroupEncoder.Send` | src/parquet_file.rs:210-215 | a send on a full channel with a live receiver first lets the task take the oldest array, which is then received; the send succeeds exactly when the receiver is still there afterwards, so a send to a dropped receiver fails; a success appends the array to what column `j` was sent, and a failure means the task panicked on a wrong-typed array; every other column's task, channel and received arrays are unchanged |
| `RowGroupEncoding.RowGroupEncoder.EncodeBatch` | src/parquet_file.rs:207-217 | columns below `delivered` were each sent their own array of the batch once, the rest nothing; stopping early means the next task panicked; a column whose receiver was already gone stops the batch at or before it; when everything is well typed, every column the zip pairs is delivered; when a column already held a wrong array or the batch has an array of another type than its task's field, some column is left holding a wrong array |
| `RowGroupEncoding.RowGroupEncoder.FinishTask` | src/parquet_file.rs:183-194 | a task whose sender is gone drains its channel and ends; a task that ended already is untouched; a task whose arrays were all well typed completes |
| `RowGroupEncoding.RowGroupEncoder.FinishAll` | src/parquet_file.rs:222 | after dropping every sender, every task has ended, and each one sent only well-typed arrays has completed |
| `RowGroupEncoding.RowGroupEncoder.JoinAll` | src/parquet_file.rs:225 | once every task has ended, `join_all` succeeds if and only if every task completed, listing in completion order each task's `(index, chunk)`, the index being the one the task captured; otherwise it re-raises the first panicked task in that order |
| `RowGroupEncoding.RowGroupEncoder.CollectInOrder` | src/parquet_file.rs:225-229 | on a valid encoder whose tasks have all ended, joining, sorting by the captured index and keeping the chunks gives, at position `j`, the chunk of task `j`, whatever the completion order; it fails exactly when some task did not complete, naming the first panicked task in completion order |
| `RowGroupEncoding.RowGroupEncoder.Close` | src/parquet_file.rs:220-230 | closing ends every task; it succeeds if and only if every task completed, which is exactly when everything sent was well typed; position `j` is the chunk writer `j` makes from every array sent to column `j`; a failure names the first panicked task in completion order |
| `RowGroupDriver.NominalRows` | src/parquet_file.rs:149 | the reused batch holds at most 100 rows and at most `rows_per_row_group`, and none only when the target is 0 |
| `RowGroupDriver.BatchSizes` | src/parquet_file.rs:153-163 | no batch is submitted exactly when nothing remains to write |
| `RowGroupDriver.BatchSizesShape` | src/parquet_file.rs:149-159 | every submitted batch has between 1 and `min(rows_per_row_group, 100)` rows, and all but the last have exactly that many |
| `RowGroupDriver.BatchSizesSum` | src/parquet_file.rs:149-163 | the submitted batches add up to exactly `rows_per_row_group`: no row missing, none extra |
| `RowGroupDriver.BatchSizesCount` | src/parquet_file.rs:153-163 | there are as many batches as `rows_per_row_group` divided by the batch size, rounded up |
| `RowGroupDriver.BatchSizesStep` | src/parquet_file.rs:154-162 | each loop turn submits the next batch size in order, and `rows_written` stays at most the target |
| `RowGroupDriver.TotalRowsSlices` | src/parquet_file.rs:155-162 | the sliced arrays hold as many rows as the batch sizes add up to |
| `RowGroupDriver.SlicedChunkRows` | src/parquet_file.rs:155-164 | a chunk written from earlier arrays and then the slices holds the writer's rows, those arrays' rows and the sizes' sum |
| `RowGroupDriver.RowGroupChunks` | src/parquet_file.rs:151-164 | what the columns were sent and what `close` returned make up the row group: chunk `j` comes from the slices of generated array `j`, names writer `j`'s column and holds `rows_per_row_group` rows more |
| `RowGroupDriver.FitsAfterBatch` | src/parquet_file.rs:207-216 | sending a batch (or its slice, of the same types) to the first columns keeps every column that was sent only arrays of its field's type, and whose batch array has that type, in that state |
| `RowGroupDriver.SubmitNext` | src/parquet_file.rs:154-162 | one loop turn submits `min(rows_left, num_rows)` rows; when the columns are well typed and the batch matches, each column's sent arrays grow by that prefix of its array; a column that so far was sent only arrays of its field's type, and whose batch array has that type, still fits afterwards; once a column holds a wrong array, or the batch's types clash with the fields, some column holds a wrong array afterwards |
| `RowGroupDriver.SubmitRows` | src/parquet_file.rs:152-163 | the loop submits exactly the batch sizes of `BatchSizes`; with well-typed columns, each column was sent exactly those slices of its array, in order; every column that fitted the batch before still fits it; an ill-typed encoder, or a clash with at least one row to write, leaves some column holding a wrong array |
| `RowGroupDriver.SubmitAndClose` | src/parquet_file.rs:153-164 | submits batches adding up to the target, each of 1 to `num_rows` rows, then closes; the close succeeds exactly when every task completed, and exactly when all sent was well typed, with chunk `j` writer `j`'s chunk of everything column `j` was sent; a failure names a panicked task whose column did not fit the batch before: it already held a wrong array or its batch array has another type than its field; an ill-typed encoder or a clash with at least one row to write makes it fail; matching columns make it succeed with the slices sent |
| `RowGroupDriver.EncodeRowGroup` | src/parquet_file.rs:143-165 | no columns fails batch creation; otherwise batches of 1 to `min(rows_per_row_group, 100)` rows, adding up to exactly the target, are submitted, and the result is a row group exactly when every task completed; a row group is, at `j`, writer `j`'s chunk of everything column `j` was sent; a task panic is reported with the column of a panicked task that either already held a wrong array or is one of the file's columns with a field not of the file type's data type; an encoder already ill typed, or such a field with rows to write, makes it fail with a task panic; for a healthy encoder the row group is column `j`'s chunk of the slices of generated array `j`, in column order, holding `rows_per_row_group` more rows |

## Left out

- `src/benchmark.rs` and `src/main.rs` are not part of this model. They hold
  timing, reading footers back, CLI orchestration and printing.
- `src/datagen.rs` is not part of this model. A generated array is symbolic:
  row `r` of an array seeded with `s` is `Drawn(s, r)`. The random values,
  the null density and the string lengths are not modelled.
- `ParquetFileSpec::create` is left out (src/parquet_file.rs:91-140):
  - the file-existence check, the temporary file and `persist`;
  - `ArrowWriter`, `create_column_writers` and `append_to_row_group`;
  - the `println!` output and the floating-point size in MB;
  - the loop over row groups.
  It is file-system and foreign-library work. `ParquetFileSpec::path` is a
  plain accessor and is not modelled either.
- True concurrency is left out.
  - The tasks' interleaving is fixed: a task receives when a send finds its
    channel full and when the encoder is closed.
  - The order in which `join_all` sees tasks complete is a parameter.
  - The tasks are independent, so the results do not depend on when a task
    runs, only on what it was sent. The model proves this per column, not
    for every interleaving.
- Column writing is a log, and page encoding and compression are not
  modelled. `writer.write` and `writer.close` never fail in the model, so
  their `unwrap` panics are not modelled. The only panic modelled in a task
  is `compute_leaves` rejecting an array of the wrong type.
- `compute_leaves` is modelled for flat fields only (one leaf per array), as
  in the generated schemas.
- `Arrow.TryNewBatch` does not check nullability against null counts,
  because the model does not record which values are null.
- `Arrow.TryNewBatch`: for a batch with both a mistyped column and a column
  of another length, which error comes back depends on the order of arrow's
  own checks, and arrow is not part of this model. The model reports the type
  mismatch, and no ensures states which error wins. The generated batches have
  neither fault.
- `usize` overflow is not modelled: `seed * columns + i` and
  `rows_written += …` are unbounded integers. In the source they stay far
  below `usize::MAX` for the sizes used.
- `eprintln!` in `encode_batch` is left out; only the early return is
  modelled.
- `sort_by_key` is modelled as an insertion sort. Like Rust's sort, it is
  stable (not proved; the column indexes are distinct anyway).
- Unwrapped failures (`create_batch` with no columns, a task's panic
  re-raised by `join_all`) become error results, not aborts.

=== FILE: arrow.dfy ===
/** The values the pipeline hands to and receives from the arrow and parquet
    libraries: schema fields, column arrays, record batches, the leaves a
    column writer consumes, the writer itself and the chunk it produces.
    The libraries' own algorithms are not modelled; only the checks and
    shapes the pipeline relies on are. */
module Arrow {
  import opened Wrappers

  /** The two arrow data types the generated files use. */
  datatype DataType = Float32 | Utf8

  /** A schema field: name, data type and nullability. */
  datatype Field = Field(name: string, dataType: DataType, nullable: bool)

  /** One row of a generated column: the `row`-th value drawn by the data
      generator seeded with `seed`. What was drawn (a number, a string or a
      null) is decided by a random-number generator that is not modelled. */
  datatype Cell = Drawn(seed: nat, row: nat)

  /** An arrow array (`ArrayRef`): its data type and its rows. */
  datatype ColumnArray = ColumnArray(dataType: DataType, cells: seq<Cell>)

  /** `array.slice(0, len)`: the first `len` rows of an array. */
  function Prefix(a: ColumnArray, len: nat): (r: ColumnArray)
    requires len <= |a.cells|
    ensures r.dataType == a.dataType && |r.cells| == len
    ensures forall i :: 0 <= i < len ==> r.cells[i] == a.cells[i]
    ensures len == |a.cells| ==> r == a
  {
    ColumnArray(a.dataType, a.cells[..len])
  }

  /** A `RecordBatch`: its schema, one array per field and its row count. */
  datatype RecordBatch = RecordBatch(schema: seq<Field>, columns: seq<ColumnArray>, numRows: nat)

  /** What `RecordBatch::try_new` guarantees of every batch it returns. */
  ghost predicate WellFormed(b: RecordBatch) {
    && |b.columns| == |b.schema|
    && |b.columns| > 0
    && forall i :: 0 <= i < |b.columns| ==>
         |b.columns[i].cells| == b.numRows && b.columns[i].dataType == b.schema[i].dataType
  }

  datatype ArrowError =
    | ColumnCountMismatch  // number of columns must match number of fields
    | NoColumns            // must either specify a row count or at least one column
    | LengthMismatch       // all columns in a record batch must have the same length
    | TypeMismatch(column: nat)  // column types must match schema types

  /** Index of the first column, from `from` on, whose type differs from its field's. */
  function FirstTypeMismatch(schema: seq<Field>, columns: seq<ColumnArray>, from: nat): (r: Option<nat>)
    requires |schema| == |columns| && from <= |columns|
    ensures r.None? <==> forall i :: from <= i < |columns| ==> columns[i].dataType == schema[i].dataType
    ensures r.Some? ==> from <= r.value < |columns| && columns[r.value].dataType != schema[r.value].dataType
    ensures r.Some? ==> forall i :: from <= i < r.value ==> columns[i].dataType == schema[i].dataType
    decreases |columns| - from
  {
    if from == |columns| then None
    else if columns[from].dataType != schema[from].dataType then Some(from)
    else FirstTypeMismatch(schema, columns, from + 1)
  }

  /** `RecordBatch::try_new(schema, columns)`: a field count other than the
      column count, no column to take the row count from, a column whose
      type is not its field's (the first such one is named) and a column
      whose length is not the first column's each give their own error.
      Nullability is not checked: the cells do not record which values are
      null. */
  function TryNewBatch(schema: seq<Field>, columns: seq<ColumnArray>): (r: Result<RecordBatch, ArrowError>)
    ensures r.Ok? <==>
              && |columns| == |schema| && |columns| > 0
              && (forall i :: 0 <= i < |columns| ==> |columns[i].cells| == |columns[0].cells|)
              && (forall i :: 0 <= i < |columns| ==> columns[i].dataType == schema[i].dataType)
    ensures r.Ok? ==> WellFormed(r.value) && r.value.schema == schema && r.value.columns == columns
    ensures |columns| != |schema| ==> r == Err(ColumnCountMismatch)
    ensures |columns| == |schema| == 0 ==> r == Err(NoColumns)
    ensures r.Err? && r.error.TypeMismatch? ==>
              && r.error.column < |columns| == |schema|
              && columns[r.error.column].dataType != schema[r.error.column].dataType
              && forall i :: 0 <= i < r.error.column ==> columns[i].dataType == schema[i].dataType
    ensures r == Err(LengthMismatch) ==>
              |columns| > 0 && exists i :: 0 <= i < |columns| && |columns[i].cells| != |columns[0].cells|
    ensures && |columns| == |schema| > 0
            && (forall i :: 0 <= i < |columns| ==> |columns[i].cells| == |columns[0].cells|)
            && (exists i :: 0 <= i < |columns| && columns[i].dataType != schema[i].dataType)
            ==> r.Err? && r.error.TypeMismatch?
    ensures && |columns| == |schema| > 0
            && (forall i :: 0 <= i < |columns| ==> columns[i].dataType == schema[i].dataType)
            && (exists i :: 0 <= i < |columns| && |columns[i].cells| != |columns[0].cells|)
            ==> r == Err(LengthMismatch)
  {
    if |schema| != |columns| then Err(ColumnCountMismatch)
    else if |columns| == 0 then Err(NoColumns)
    else
      var rowCount := |columns[0].cells|;
      match FirstTypeMismatch(schema, columns, 0)
      case Some(i) => Err(TypeMismatch(i))
      case None =>
        if exists i :: 0 <= i < |columns| && |columns[i].cells| != rowCount then Err(LengthMismatch)
        else Ok(RecordBatch(schema, columns, rowCount))
  }

  /** `batch.slice(0, len)`: the first `len` rows of every column. */
  function SliceBatch(b: RecordBatch, len: nat): (r: RecordBatch)
    requires WellFormed(b) && len <= b.numRows
    ensures WellFormed(r) && r.schema == b.schema && r.numRows == len
    ensures |r.columns| == |b.columns|
    ensures forall i :: 0 <= i < |r.columns| ==> r.columns[i] == Prefix(b.columns[i], len)
  {
    RecordBatch(b.schema, seq(|b.columns|, i requires 0 <= i < |b.columns| => Prefix(b.columns[i], len)), len)
  }

  /** A leaf array as a column writer consumes it: the array's values, with
      definition levels when the field is nullable. */
  datatype Leaf = Leaf(values: ColumnArray, definitionLevels: bool)

  datatype LeafError = IncompatibleType(fieldType: DataType, arrayType: DataType)

  /** `compute_leaves(field, a)` for a flat field such as the generated
      files have: one leaf holding the whole array, or an error when the
      array's type does not match the field's. */
  function ComputeLeaves(field: Field, a: ColumnArray): (r: Result<seq<Leaf>, LeafError>)
    ensures r.Ok? <==> a.dataType == field.dataType
    ensures r.Ok? ==> LeafRows(r.value) == |a.cells|
    ensures r.Ok? ==> forall k :: 0 <= k < |r.value| ==> r.value[k].values.dataType == field.dataType
  {
    if a.dataType != field.dataType then Err(IncompatibleType(field.dataType, a.dataType))
    else Ok([Leaf(a, field.nullable)])
  }

  /** The number of rows a sequence of leaves holds. */
  function LeafRows(leaves: seq<Leaf>): nat
    decreases |leaves|
  {
    if leaves == [] then 0 else LeafRows(leaves[..|leaves| - 1]) + |leaves[|leaves| - 1].values.cells|
  }

  lemma {:induction false} LeafRowsAppend(a: seq<Leaf>, b: seq<Leaf>)
    ensures LeafRows(a + b) == LeafRows(a) + LeafRows(b)
    decreases |b|
  {
    if b != [] {
      assert (a + b)[..|a + b| - 1] == a + b[..|b| - 1];
      LeafRowsAppend(a, b[..|b| - 1]);
    } else {
      assert a + b == a;
    }
  }

  /** An `ArrowColumnWriter`: the leaf column it was created for and the
      leaves written to it so far, in order. Encoding into pages is not
      modelled. */
  datatype ColumnWriter = ColumnWriter(column: nat, written: seq<Leaf>)

  /** An `ArrowColumnChunk`: the closed output of one column writer. */
  datatype ColumnChunk = ColumnChunk(column: nat, leaves: seq<Leaf>)

  /** A column writer writing one leaf: the leaf goes after those it holds. */
  function Write(w: ColumnWriter, leaf: Leaf): ColumnWriter {
    w.(written := w.written + [leaf])
  }

  /** The writer after `leaves` have been written to it one by one. */
  function WriteAll(w: ColumnWriter, leaves: seq<Leaf>): ColumnWriter {
    w.(written := w.written + leaves)
  }

  /** Writing each leaf to the writer in turn: the writer keeps its
      column and ends up holding what it held before, then `leaves` in
      order. */
  method WriteLeaves(writer: ColumnWriter, leaves: seq<Leaf>) returns (w: ColumnWriter)
    ensures w.column == writer.column && w.written == writer.written + leaves
  {
    w := writer;
    for k := 0 to |leaves|
      invariant w.column == writer.column && w.written == writer.written + leaves[..k]
    {
      assert leaves[..k + 1] == leaves[..k] + [leaves[k]];
      w := Write(w, leaves[k]);
    }
    assert leaves[..|leaves|] == leaves;
  }

  /** Closing a column writer: its chunk holds every leaf it was given. */
  function CloseWriter(w: ColumnWriter): ColumnChunk {
    ColumnChunk(w.column, w.written)
  }

  /** The number of rows a chunk reports. */
  function ChunkRows(c: ColumnChunk): nat {
    LeafRows(c.leaves)
  }
}

=== FILE: column_order.dfy ===
/** The ordering step of `RowGroupEncoder::close` (src/parquet_file.rs):
    the `(column_index, chunk)` pairs arrive in whatever order the column
    tasks complete, and `sort_by_key` on the index puts them back into
    column order. */
module ColumnOrder {
  import opened Arrow

  /** Ascending by column index. */
  ghost predicate SortedByIndex(s: seq<(nat, ColumnChunk)>) {
    forall p, q :: 0 <= p < q < |s| ==> s[p].0 <= s[q].0
  }

  /** Position `i` holds the pair of column `i`. */
  ghost predicate InColumnOrder(s: seq<(nat, ColumnChunk)>) {
    forall i :: 0 <= i < |s| ==> s[i].0 == i
  }

  /** The column indexes `0 .. n-1` in order. */
  function Range(n: nat): (r: seq<nat>)
    ensures |r| == n && forall i :: 0 <= i < n ==> r[i] == i
  {
    seq(n, (i: nat) => i)
  }

  /** `order` lists every column index below `n` exactly once. */
  ghost predicate IsPermutationOf(order: seq<nat>, n: nat) {
    multiset(order) == multiset(Range(n))
  }

  lemma PermutationCovers(order: seq<nat>, n: nat)
    requires IsPermutationOf(order, n)
    ensures |order| == n
    ensures forall k :: 0 <= k < |order| ==> order[k] < n
    ensures forall j :: 0 <= j < n ==> j in order
  {
    assert |multiset(order)| == |multiset(Range(n))|;
    forall k | 0 <= k < |order| ensures order[k] < n {
      assert order[k] in multiset(order);
    }
    forall j | 0 <= j < n ensures j in order {
      assert Range(n)[j] == j;
      assert j in multiset(Range(n));
    }
  }

  /** The elements of `c` in the order `order` names them. */
  function Pick<T>(c: seq<T>, order: seq<nat>): (r: seq<T>)
    requires forall k :: 0 <= k < |order| ==> order[k] < |c|
    ensures |r| == |order| && forall k :: 0 <= k < |order| ==> r[k] == c[order[k]]
  {
    seq(|order|, k requires 0 <= k < |order| => c[order[k]])
  }

  lemma PickConcat<T>(c: seq<T>, u: seq<nat>, v: seq<nat>)
    requires forall k :: 0 <= k < |u| ==> u[k] < |c|
    requires forall k :: 0 <= k < |v| ==> v[k] < |c|
    ensures Pick(c, u + v) == Pick(c, u) + Pick(c, v)
  {
  }

  /** Removing the element at `i` removes one occurrence of it. */
  lemma MultisetRemove<T>(s: seq<T>, i: nat)
    requires i < |s|
    ensures multiset(s[..i] + s[i + 1..]) == multiset(s) - multiset{s[i]}
  {
    assert s == s[..i] + [s[i]] + s[i + 1..];
  }

  /** Leaving out the `i`-th index leaves out one pick of it. */
  lemma PickRemove<T>(c: seq<T>, s: seq<nat>, i: nat)
    requires forall k :: 0 <= k < |s| ==> s[k] < |c|
    requires i < |s|
    ensures multiset(Pick(c, s)) == multiset(Pick(c, s[..i] + s[i + 1..])) + multiset{c[s[i]]}
  {
    var u, v := s[..i], s[i + 1..];
    assert s == u + ([s[i]] + v);
    PickConcat(c, u, [s[i]] + v);
    PickConcat(c, [s[i]], v);
    PickConcat(c, u, v);
    assert Pick(c, [s[i]]) == [c[s[i]]];
  }

  /** Picking by two orders that are permutations of each other yields
      permutations of each other. */
  lemma {:induction false} PickPermutation<T>(c: seq<T>, a: seq<nat>, b: seq<nat>)
    requires forall k :: 0 <= k < |a| ==> a[k] < |c|
    requires forall k :: 0 <= k < |b| ==> b[k] < |c|
    requires multiset(a) == multiset(b)
    ensures multiset(Pick(c, a)) == multiset(Pick(c, b))
    decreases |a|
  {
    if a == [] {
      assert |multiset(b)| == 0;
    } else {
      var last := |a| - 1;
      var x := a[last];
      assert x in multiset(b);
      var i :| 0 <= i < |b| && b[i] == x;
      var a', b' := a[..last] + a[last + 1..], b[..i] + b[i + 1..];
      MultisetRemove(a, last);
      MultisetRemove(b, i);
      assert multiset(a') == multiset(b');
      assert forall k :: 0 <= k < |a'| ==> a'[k] < |c|;
      assert forall k :: 0 <= k < |b'| ==> b'[k] < |c|;
      PickPermutation(c, a', b');
      PickRemove(c, a, last);
      PickRemove(c, b, i);
    }
  }

  /** The last of a sorted permutation of the column order is the last column. */
  lemma LastIsLastColumn(s: seq<(nat, ColumnChunk)>, c: seq<(nat, ColumnChunk)>)
    requires InColumnOrder(c)
    requires SortedByIndex(s)
    requires multiset(s) == multiset(c)
    requires s != []
    ensures |s| == |c| && s[|s| - 1] == c[|s| - 1]
  {
    assert |multiset(s)| == |multiset(c)|;
    var n := |s|;
    assert c[n - 1] in multiset(s);
    var i :| 0 <= i < n && s[i] == c[n - 1];
    assert s[n - 1] in multiset(c);
    var k :| 0 <= k < n && c[k] == s[n - 1];
    assert s[n - 1].0 >= s[i].0;
  }

  /** Two sequences that agree as multisets and on their last element
      agree as multisets without it. */
  lemma MultisetDropLast<T>(s: seq<T>, c: seq<T>)
    requires |s| == |c| > 0 && s[|s| - 1] == c[|c| - 1]
    requires multiset(s) == multiset(c)
    ensures multiset(s[..|s| - 1]) == multiset(c[..|c| - 1])
  {
    var n := |s|;
    assert multiset(s[..n - 1]) == multiset(s) - multiset{s[n - 1]} by {
      MultisetRemove(s, n - 1);
      assert s[..n - 1] + s[n..] == s[..n - 1];
    }
    assert multiset(c[..n - 1]) == multiset(c) - multiset{c[n - 1]} by {
      MultisetRemove(c, n - 1);
      assert c[..n - 1] + c[n..] == c[..n - 1];
    }
  }

  lemma SortedPrefix(s: seq<(nat, ColumnChunk)>, m: nat)
    requires SortedByIndex(s) && m <= |s|
    ensures SortedByIndex(s[..m])
  {
  }

  lemma ColumnOrderPrefix(c: seq<(nat, ColumnChunk)>, m: nat)
    requires InColumnOrder(c) && m <= |c|
    ensures InColumnOrder(c[..m])
  {
  }

  /** Whatever order the pairs came in, a sorted permutation of the pairs
      in column order IS the column order: nothing omitted, nothing
      duplicated, position `i` holding column `i`. */
  lemma {:induction false} SortedPermutationIsColumnOrder(s: seq<(nat, ColumnChunk)>, c: seq<(nat, ColumnChunk)>)
    requires InColumnOrder(c)
    requires SortedByIndex(s)
    requires multiset(s) == multiset(c)
    ensures s == c
    decreases |s|
  {
    if s == [] {
      assert |multiset(c)| == 0;
    } else {
      LastIsLastColumn(s, c);
      var n := |s|;
      MultisetDropLast(s, c);
      SortedPrefix(s, n - 1);
      ColumnOrderPrefix(c, n - 1);
      SortedPermutationIsColumnOrder(s[..n - 1], c[..n - 1]);
      assert s == s[..n - 1] + [s[n - 1]];
      assert c == c[..n - 1] + [c[n - 1]];
    }
  }

  /** The first `m` pairs are each in order with the next. */
  ghost predicate SortedUpTo(s: seq<(nat, ColumnChunk)>, m: nat) {
    forall k :: 0 < k < m && k < |s| ==> s[k - 1].0 <= s[k].0
  }

  /** Order between neighbours is order throughout. */
  lemma {:induction false} SortedUpToIsSorted(s: seq<(nat, ColumnChunk)>)
    requires SortedUpTo(s, |s|)
    ensures SortedByIndex(s)
    decreases |s|
  {
    if |s| > 1 {
      var n := |s|;
      var s' := s[..n - 1];
      SortedUpToIsSorted(s');
      forall p, q | 0 <= p < q < n ensures s[p].0 <= s[q].0 {
        if q < n - 1 {
          assert s'[p].0 <= s'[q].0;
        } else if p < n - 2 {
          assert s'[p].0 <= s'[n - 2].0;
        }
      }
    }
  }

  /** While `s[j]` moves down into `s[..i + 1]`: every neighbour pair up
      to `i` is in order except possibly the one ending at `j`, and the
      pairs around `j` are in order with each other. */
  ghost predicate InsertInv(s: seq<(nat, ColumnChunk)>, i: nat, j: nat) {
    && j <= i < |s|
    && (forall k :: 0 < k <= i && k != j ==> s[k - 1].0 <= s[k].0)
    && (0 < j < i ==> s[j - 1].0 <= s[j + 1].0)
  }

  /** Exchanging `s[j]` with a larger left neighbour moves it one place
      down and keeps the multiset. */
  lemma InsertStep(s: seq<(nat, ColumnChunk)>, i: nat, j: nat)
    requires InsertInv(s, i, j) && 0 < j && s[j - 1].0 > s[j].0
    ensures InsertInv(s[j - 1 := s[j]][j := s[j - 1]], i, j - 1)
    ensures multiset(s[j - 1 := s[j]][j := s[j - 1]]) == multiset(s)
  {
    InsertStepOrder(s, i, j);
    SwapKeepsMultiset(s, j - 1, j);
  }

  /** The order half of `InsertStep`. */
  lemma InsertStepOrder(s: seq<(nat, ColumnChunk)>, i: nat, j: nat)
    requires InsertInv(s, i, j) && 0 < j && s[j - 1].0 > s[j].0
    ensures InsertInv(s[j - 1 := s[j]][j := s[j - 1]], i, j - 1)
  {
    var t := s[j - 1 := s[j]][j := s[j - 1]];
    assert t[j - 1] == s[j] && t[j] == s[j - 1];
    forall k | 0 < k <= i && k != j - 1 ensures t[k - 1].0 <= t[k].0 {
      if k == j + 1 {
        assert t[k] == s[j + 1];
      } else if k != j {
        assert t[k - 1] == s[k - 1] && t[k] == s[k];
      }
    }
    if 0 < j - 1 {
      assert t[j - 2] == s[j - 2];
      assert s[j - 2].0 <= s[j - 1].0;
    }
  }

  /** Exchanging two neighbours keeps the multiset. */
  lemma SwapKeepsMultiset<T>(s: seq<T>, i: nat, j: nat)
    requires i < |s| && j < |s|
    ensures multiset(s[i := s[j]][j := s[i]]) == multiset(s)
  {
  }

  /** Once `s[j]` is at the front or behind a smaller-or-equal neighbour,
      `s[..i + 1]` is in order. */
  lemma InsertDone(s: seq<(nat, ColumnChunk)>, i: nat, j: nat)
    requires InsertInv(s, i, j) && (j == 0 || s[j - 1].0 <= s[j].0)
    ensures SortedUpTo(s, i + 1)
  {
  }

  /** One pass of insertion sort: move `a[i]` down past every larger
      index, leaving `a[..i + 1]` in order. */
  method InsertLast(a: array<(nat, ColumnChunk)>, i: nat)
    requires i < a.Length && SortedUpTo(a[..], i)
    modifies a
    ensures SortedUpTo(a[..], i + 1)
    ensures multiset(a[..]) == old(multiset(a[..]))
  {
    var j: nat := i;
    while j > 0 && a[j - 1].0 > a[j].0
      invariant InsertInv(a[..], i, j)
      invariant multiset(a[..]) == old(multiset(a[..]))
    {
      ghost var before := a[..];
      InsertStep(before, i, j);
      a[j - 1], a[j] := a[j], a[j - 1];
      assert a[..] == before[j - 1 := before[j]][j := before[j - 1]];
      j := j - 1;
    }
    InsertDone(a[..], i, j);
  }

  /** Sorting the completed pairs by their column index, as a stable insertion
      sort in place. */
  method SortByColumnIndex(a: array<(nat, ColumnChunk)>)
    modifies a
    ensures SortedByIndex(a[..])
    ensures multiset(a[..]) == old(multiset(a[..]))
  {
    for i := 0 to a.Length
      invariant SortedUpTo(a[..], i)
      invariant multiset(a[..]) == old(multiset(a[..]))
    {
      InsertLast(a, i);
    }
    SortedUpToIsSorted(a[..]);
  }
}

=== FILE: decimal.dfy ===
/** Decimal rendering of an unsigned integer, as Rust's `{}` formats a `usize`:
    base ten, no sign, no leading zeros, "0" for zero. */
module Decimal {

  predicate IsDigit(c: char) {
    '0' <= c <= '9'
  }

  predicate AllDigits(s: string) {
    forall i :: 0 <= i < |s| ==> IsDigit(s[i])
  }

  function DigitChar(d: nat): (c: char)
    requires d < 10
    ensures IsDigit(c) && c as int - '0' as int == d
  {
    ('0' as int + d) as char
  }

  function DigitValue(c: char): (d: nat)
    requires IsDigit(c)
    ensures d < 10 && DigitChar(d) == c
  {
    c as int - '0' as int
  }

  /** The decimal text of `n`, as Rust's `Display` for integers writes it. */
  function NatToDecimal(n: nat): (s: string)
    ensures |s| > 0 && AllDigits(s)
    ensures s[0] == '0' <==> n == 0
    ensures n == 0 ==> s == "0"
    decreases n
  {
    if n < 10 then [DigitChar(n)] else NatToDecimal(n / 10) + [DigitChar(n % 10)]
  }

  /** Reads a string of digits back as a number (the reference definition
      that NatToDecimal is checked against). */
  function ParseDecimal(s: string): (n: nat)
    requires AllDigits(s)
    decreases |s|
  {
    if s == [] then 0 else ParseDecimal(s[..|s| - 1]) * 10 + DigitValue(s[|s| - 1])
  }

  lemma {:induction false} ParseNatToDecimal(n: nat)
    ensures ParseDecimal(NatToDecimal(n)) == n
    decreases n
  {
    if n >= 10 {
      var s := NatToDecimal(n);
      assert s[..|s| - 1] == NatToDecimal(n / 10);
      ParseNatToDecimal(n / 10);
    }
  }

  /** Different numbers render differently. */
  lemma NatToDecimalInjective(m: nat, n: nat)
    ensures NatToDecimal(m) == NatToDecimal(n) ==> m == n
  {
    ParseNatToDecimal(m);
    ParseNatToDecimal(n);
  }
}

=== FILE: file_type.dfy ===
/** The kind of data file to generate (src/file_type.rs): its display name,
    the schema of its files and the batch of generated columns. */
module FileTypes {
  import opened Wrappers
  import opened Arrow
  import Decimal

  /** `FileType`: float32 columns or utf8 string columns. */
  datatype FileType = Float | String

  /** `impl Display for FileType`. */
  function Display(ft: FileType): (s: string)
    ensures s == "Float32" <==> ft == Float
    ensures s == "String" <==> ft == String
  {
    match ft
    case Float => "Float32"
    case String => "String"
  }

  /** The two file types display differently (file names are built from it). */
  lemma DisplayInjective(a: FileType, b: FileType)
    ensures Display(a) == Display(b) <==> a == b
    ensures Display(Float) == "Float32" && Display(String) == "String"
  {
  }

  /** The derived `Debug` rendering: the variant's name. */
  function DebugName(ft: FileType): string {
    match ft
    case Float => "Float"
    case String => "String"
  }

  /** The arrow data type of every column of a file of this type. */
  function ColumnType(ft: FileType): DataType {
    match ft
    case Float => Float32
    case String => Utf8
  }

  /** The name of column `i`: "col_" then the decimal digits of `i`. */
  function ColumnName(i: nat): string {
    "col_" + Decimal.NatToDecimal(i)
  }

  /** Distinct column indexes give distinct column names. */
  lemma ColumnNameInjective(i: nat, j: nat)
    ensures ColumnName(i) == ColumnName(j) <==> i == j
  {
    if ColumnName(i) == ColumnName(j) {
      assert ColumnName(i)[4..] == Decimal.NatToDecimal(i);
      assert ColumnName(j)[4..] == Decimal.NatToDecimal(j);
      Decimal.NatToDecimalInjective(i, j);
    }
  }

  /** `FileType::schema(columns)`: one nullable field per column, named
      `col_<index>`, all of the file type's data type. */
  function Schema(ft: FileType, columns: nat): (fields: seq<Field>)
    ensures |fields| == columns
    ensures forall i :: 0 <= i < columns ==> fields[i].name == "col_" + Decimal.NatToDecimal(i)
    ensures forall i :: 0 <= i < columns ==> fields[i].nullable
    ensures ft == Float ==> forall i :: 0 <= i < columns ==> fields[i].dataType == Float32
    ensures ft == String ==> forall i :: 0 <= i < columns ==> fields[i].dataType == Utf8
  {
    match ft
    case Float => seq(columns, (i: nat) => Field(ColumnName(i), Float32, true))
    case String => seq(columns, (i: nat) => Field(ColumnName(i), Utf8, true))
  }

  /** No two fields of a schema share a name. */
  lemma SchemaNamesDistinct(ft: FileType, columns: nat, i: nat, j: nat)
    requires i < columns && j < columns && i != j
    ensures Schema(ft, columns)[i].name != Schema(ft, columns)[j].name
  {
    ColumnNameInjective(i, j);
  }

  /** The generator seed of column `i` of the batch created with `seed`. */
  function ArraySeed(seed: nat, columns: nat, i: nat): nat {
    seed * columns + i
  }

  lemma MulMonotone(a: nat, b: nat, c: nat)
    requires a <= b
    ensures a * c <= b * c
  {
  }

  /** Distinct (batch seed, column) pairs get distinct array seeds, so no two
      columns of one batch, nor the same column of two batches, share a seed. */
  lemma ArraySeedInjective(s1: nat, i: nat, s2: nat, j: nat, columns: nat)
    requires i < columns && j < columns
    ensures ArraySeed(s1, columns, i) == ArraySeed(s2, columns, j) <==> s1 == s2 && i == j
  {
    if s1 < s2 {
      MulMonotone(s1 + 1, s2, columns);
      assert ArraySeed(s1, columns, i) < (s1 + 1) * columns;
    } else if s2 < s1 {
      MulMonotone(s2 + 1, s1, columns);
      assert ArraySeed(s2, columns, j) < (s2 + 1) * columns;
    }
  }

  /** The array `datagen` produces for a column of this type: `numRows`
      rows drawn from the generator seeded with `seed` (floats with
      `create_primitive_array_with_seed`, strings of at most 20 characters
      with `create_string_array_with_max_len`). */
  function GeneratedArray(ft: FileType, numRows: nat, seed: nat): (a: ColumnArray)
    ensures a.dataType == ColumnType(ft) && |a.cells| == numRows
    ensures forall r :: 0 <= r < numRows ==> a.cells[r] == Drawn(seed, r)
  {
    ColumnArray(ColumnType(ft), seq(numRows, (r: nat) => Drawn(seed, r)))
  }

  /** `FileType::create_batch(seed, num_rows, columns)`: one generated array
      per column, column `i` seeded with `seed * columns + i`, assembled with
      `RecordBatch::try_new` against `schema(columns)`. The `unwrap` there
      fails exactly when there are no columns. */
  method CreateBatch(ft: FileType, seed: nat, numRows: nat, columns: nat) returns (r: Result<RecordBatch, ArrowError>)
    ensures r.Err? <==> columns == 0
    ensures r.Err? ==> r.error == NoColumns
    ensures r.Ok? ==> WellFormed(r.value) && r.value.schema == Schema(ft, columns)
    ensures r.Ok? ==> r.value.numRows == numRows && |r.value.columns| == columns
    ensures r.Ok? ==> forall i :: 0 <= i < columns ==>
              r.value.columns[i] == GeneratedArray(ft, numRows, ArraySeed(seed, columns, i))
  {
    var arrays: seq<ColumnArray> := [];
    for i := 0 to columns
      invariant |arrays| == i
      invariant forall k :: 0 <= k < i ==> arrays[k] == GeneratedArray(ft, numRows, ArraySeed(seed, columns, k))
    {
      var arraySeed := seed * columns + i;
      var a := GeneratedArray(ft, numRows, arraySeed);
      arrays := arrays + [a];
    }
    var schema := Schema(ft, columns);
    assert forall i :: 0 <= i < columns ==> arrays[i].dataType == schema[i].dataType by {
      assert ft == Float || ft == String;
    }
    r := TryNewBatch(schema, arrays);
  }
}

=== FILE: row_group_driver.dfy ===
/** `encode_row_group` (src/parquet_file.rs): feed exactly
    `rows_per_row_group` rows into a row-group encoder, reusing one
    generated batch of at most 100 rows and slicing the last one short,
    then close the encoder. */
module RowGroupDriver {
  import opened Wrappers
  import opened Arrow
  import opened FileTypes
  import opened ColumnOrder
  import opened RowGroupEncoding

  /** The most rows the reused batch holds. */
  const MaxBatchRows: nat := 100

  /** `rows_per_row_group.min(100)`: the rows of the reused batch. */
  function NominalRows(rowsPerRowGroup: nat): (n: nat)
    ensures n <= MaxBatchRows && n <= rowsPerRowGroup
    ensures n == 0 <==> rowsPerRowGroup == 0
  {
    if rowsPerRowGroup < MaxBatchRows then rowsPerRowGroup else MaxBatchRows
  }

  /** The row counts of the batches submitted while `remaining` rows are
      still to be written and the reused batch has `nominal` rows: none at
      all when nothing remains. */
  function BatchSizes(remaining: nat, nominal: nat): (sizes: seq<nat>)
    requires remaining > 0 ==> nominal > 0
    ensures |sizes| == 0 <==> remaining == 0
    decreases remaining
  {
    if remaining == 0 then []
    else
      var size := if remaining < nominal then remaining else nominal;
      [size] + BatchSizes(remaining - size, nominal)
  }

  /** Every batch holds between 1 and `nominal` rows, and all but the last
      exactly `nominal`: only the last one is sliced. */
  lemma {:induction false} BatchSizesShape(remaining: nat, nominal: nat)
    requires remaining > 0 ==> nominal > 0
    ensures forall k :: 0 <= k < |BatchSizes(remaining, nominal)| ==> 1 <= BatchSizes(remaining, nominal)[k] <= nominal
    ensures forall k :: 0 <= k < |BatchSizes(remaining, nominal)| - 1 ==> BatchSizes(remaining, nominal)[k] == nominal
    decreases remaining
  {
    if remaining > 0 {
      var size := if remaining < nominal then remaining else nominal;
      var rest := BatchSizes(remaining - size, nominal);
      BatchSizesShape(remaining - size, nominal);
      var sizes := BatchSizes(remaining, nominal);
      assert sizes == [size] + rest;
      forall k | 0 <= k < |sizes| ensures 1 <= sizes[k] <= nominal {
        if k > 0 { assert sizes[k] == rest[k - 1]; }
      }
      forall k | 0 <= k < |sizes| - 1 ensures sizes[k] == nominal {
        if k > 0 { assert sizes[k] == rest[k - 1]; }
      }
    }
  }

  function Sum(s: seq<nat>): nat {
    if s == [] then 0 else s[0] + Sum(s[1..])
  }

  lemma {:induction false} SumAppend(a: seq<nat>, b: seq<nat>)
    ensures Sum(a + b) == Sum(a) + Sum(b)
    decreases |a|
  {
    if a == [] {
      assert a + b == b;
    } else {
      assert (a + b)[1..] == a[1..] + b;
      SumAppend(a[1..], b);
    }
  }

  /** The submitted batches add up to exactly the target: no row missing,
      no row extra. */
  lemma {:induction false} BatchSizesSum(remaining: nat, nominal: nat)
    requires remaining > 0 ==> nominal > 0
    ensures Sum(BatchSizes(remaining, nominal)) == remaining
    decreases remaining
  {
    if remaining > 0 {
      var size := if remaining < nominal then remaining else nominal;
      BatchSizesSum(remaining - size, nominal);
    }
  }

  /** There are ceil(remaining / nominal) batches: just enough to hold
      `remaining` rows, and one fewer would not be. */
  lemma {:induction false} BatchSizesCount(remaining: nat, nominal: nat)
    requires nominal > 0
    ensures remaining <= |BatchSizes(remaining, nominal)| * nominal < remaining + nominal
    decreases remaining
  {
    if remaining >= nominal {
      var rest := BatchSizes(remaining - nominal, nominal);
      BatchSizesCount(remaining - nominal, nominal);
      assert |BatchSizes(remaining, nominal)| == |rest| + 1;
      assert (|rest| + 1) * nominal == |rest| * nominal + nominal;
    }
  }

  /** After `written` of `total` rows, the batches submitted so far are
      `done`, and the sizes still to come complete them. */
  ghost predicate OnTrack(done: seq<nat>, written: nat, nominal: nat, total: nat)
    requires written <= total && (total > 0 ==> nominal > 0)
  {
    done + BatchSizes(total - written, nominal) == BatchSizes(total, nominal)
  }

  /** Once every row is written, the batches submitted are all of them. */
  lemma OnTrackDone(done: seq<nat>, nominal: nat, total: nat)
    requires (total > 0 ==> nominal > 0) && OnTrack(done, total, nominal, total)
    ensures done == BatchSizes(total, nominal)
  {
    assert done + [] == done;
  }

  /** One loop step: the batch submitted next is the head of the sizes
      still to come. */
  lemma BatchSizesStep(done: seq<nat>, written: nat, size: nat, nominal: nat, total: nat)
    requires written < total && nominal > 0 && OnTrack(done, written, nominal, total)
    requires size == if total - written < nominal then total - written else nominal
    ensures written + size <= total && OnTrack(done + [size], written + size, nominal, total)
  {
    assert BatchSizes(total - written, nominal) == [size] + BatchSizes(total - (written + size), nominal);
    assert (done + [size]) + BatchSizes(total - (written + size), nominal) == done + BatchSizes(total - written, nominal);
  }

  /** The first `sizes[k]` rows of `a`, for each `k`. */
  function Slices(a: ColumnArray, sizes: seq<nat>): (r: seq<ColumnArray>)
    requires forall k :: 0 <= k < |sizes| ==> sizes[k] <= |a.cells|
    ensures |r| == |sizes|
    ensures forall k :: 0 <= k < |sizes| ==> r[k] == Prefix(a, sizes[k])
  {
    seq(|sizes|, k requires 0 <= k < |sizes| => Prefix(a, sizes[k]))
  }

  lemma SlicesSnoc(a: ColumnArray, sizes: seq<nat>, size: nat)
    requires forall k :: 0 <= k < |sizes| ==> sizes[k] <= |a.cells|
    requires size <= |a.cells|
    ensures Slices(a, sizes + [size]) == Slices(a, sizes) + [Prefix(a, size)]
  {
  }

  /** Column `j` has been sent the arrays `start[j]`, then the first
      `sizes[k]` rows of `arrays[j]` for each `k` in order. */
  ghost predicate SentSlices(sent: seq<seq<ColumnArray>>, start: seq<seq<ColumnArray>>,
                             arrays: seq<ColumnArray>, sizes: seq<nat>)
  {
    && |sent| <= |start| && |sent| <= |arrays|
    && (forall j, k :: 0 <= j < |sent| && 0 <= k < |sizes| ==> sizes[k] <= |arrays[j].cells|)
    && forall j :: 0 <= j < |sent| ==> sent[j] == start[j] + Slices(arrays[j], sizes)
  }

  /** Nothing sent yet: every column holds what it started with. */
  lemma SentNoSlices(start: seq<seq<ColumnArray>>, arrays: seq<ColumnArray>)
    requires |start| <= |arrays|
    ensures SentSlices(start, start, arrays, [])
  {
    forall j | 0 <= j < |start| ensures start[j] == start[j] + Slices(arrays[j], []) {
      assert start[j] + [] == start[j];
    }
  }

  /** One more batch, the first `size` rows of the arrays, extends every
      column's slices by one. */
  lemma SlicesAdvance(start: seq<seq<ColumnArray>>, before: seq<seq<ColumnArray>>, after: seq<seq<ColumnArray>>,
                      arrays: seq<ColumnArray>, next: seq<ColumnArray>, sizes: seq<nat>, size: nat)
    requires SentSlices(before, start, arrays, sizes)
    requires |after| == |before| <= |next|
    requires forall j :: 0 <= j < |after| ==> size <= |arrays[j].cells| && next[j] == Prefix(arrays[j], size)
    requires forall j :: 0 <= j < |after| ==> after[j] == before[j] + [next[j]]
    ensures SentSlices(after, start, arrays, sizes + [size])
  {
    forall j | 0 <= j < |after| ensures after[j] == start[j] + Slices(arrays[j], sizes + [size]) {
      SlicesSnoc(arrays[j], sizes, size);
    }
  }

  /** The slices hold as many rows as the sizes add up to. */
  lemma {:induction false} TotalRowsSlices(a: ColumnArray, sizes: seq<nat>)
    requires forall k :: 0 <= k < |sizes| ==> sizes[k] <= |a.cells|
    ensures TotalRows(Slices(a, sizes)) == Sum(sizes)
    decreases |sizes|
  {
    if sizes != [] {
      var front := sizes[..|sizes| - 1];
      assert Slices(a, sizes)[..|sizes| - 1] == Slices(a, front);
      TotalRowsSlices(a, front);
      assert sizes == front + [sizes[|sizes| - 1]];
      SumAppend(front, [sizes[|sizes| - 1]]);
    }
  }

  /** The rows of a chunk written from `sent` followed by slices of `a`. */
  lemma SlicedChunkRows(w0: ColumnWriter, field: Field, sent: seq<ColumnArray>, a: ColumnArray, sizes: seq<nat>)
    requires forall k :: 0 <= k < |sizes| ==> sizes[k] <= |a.cells|
    requires AllMatch(field, sent + Slices(a, sizes))
    ensures ChunkRows(ExpectedChunk(w0, field, sent + Slices(a, sizes)))
            == LeafRows(w0.written) + TotalRows(sent) + Sum(sizes)
  {
    ExpectedChunkRows(w0, field, sent + Slices(a, sizes));
    TotalRowsSlices(a, sizes);
    TotalRowsAppend(sent, Slices(a, sizes));
  }

  /** The row group a healthy encoder produces: column `j` is the chunk
      writer `writers[j]` makes from the arrays `sent0[j]` its task had
      been sent before, followed by the slices `sizes` of generated array
      `j`, all of its field's type; it names the writer's column and holds
      `rows` rows more than the writer and those arrays did. */
  ghost predicate RowGroupFromSlices(chunks: seq<ColumnChunk>, tasks: seq<ColumnTask>, sent0: seq<seq<ColumnArray>>,
                                     writers: seq<ColumnWriter>, fileType: FileType, nominal: nat,
                                     sizes: seq<nat>, rows: nat)
  {
    && |chunks| == |tasks| && |tasks| <= |sent0| && |tasks| <= |writers|
    && (forall k :: 0 <= k < |sizes| ==> sizes[k] <= nominal)
    && forall j :: 0 <= j < |chunks| ==>
         var slices := Slices(GeneratedArray(fileType, nominal, j), sizes);
         && AllMatch(tasks[j].field, sent0[j] + slices)
         && chunks[j] == ExpectedChunk(writers[j], tasks[j].field, sent0[j] + slices)
         && chunks[j].column == writers[j].column
         && ChunkRows(chunks[j]) == LeafRows(writers[j].written) + TotalRows(sent0[j]) + rows
  }

  /** What `close` returns for a healthy encoder: for each task `j`, the
      chunk writer `writers[j]` makes from the arrays `sent[j]`, all of the
      task's field type. */
  ghost predicate ClosedChunks(chunks: seq<ColumnChunk>, tasks: seq<ColumnTask>, writers: seq<ColumnWriter>,
                               sent: seq<seq<ColumnArray>>)
  {
    && |chunks| == |tasks| == |sent| <= |writers|
    && forall j {:trigger chunks[j]} :: 0 <= j < |chunks| ==>
         AllMatch(tasks[j].field, sent[j]) && chunks[j] == ExpectedChunk(writers[j], tasks[j].field, sent[j])
  }

  /** One column of `RowGroupFromSlices`: a chunk made from `start`
      followed by the slices of generated array `j`. */
  lemma ColumnFromSlices(j: nat, chunk: ColumnChunk, w: ColumnWriter, field: Field, sent: seq<ColumnArray>,
                         start: seq<ColumnArray>, a: ColumnArray, fileType: FileType, nominal: nat,
                         sizes: seq<nat>, rows: nat)
    requires a == GeneratedArray(fileType, nominal, j)
    requires forall k :: 0 <= k < |sizes| ==> sizes[k] <= nominal
    requires Sum(sizes) == rows
    requires sent == start + Slices(a, sizes)
    requires AllMatch(field, sent) && chunk == ExpectedChunk(w, field, sent)
    ensures AllMatch(field, start + Slices(GeneratedArray(fileType, nominal, j), sizes))
    ensures chunk == ExpectedChunk(w, field, start + Slices(GeneratedArray(fileType, nominal, j), sizes))
    ensures chunk.column == w.column
    ensures ChunkRows(chunk) == LeafRows(w.written) + TotalRows(start) + rows
  {
    SlicedChunkRows(w, field, start, a, sizes);
  }

  /** Column by column, what the encoder's tasks were sent and what `close`
      returned make up the row group of `RowGroupFromSlices`, when the
      batch's arrays are the generated arrays `0, 1, ...`. */
  lemma RowGroupChunks(tasks: seq<ColumnTask>, sent0: seq<seq<ColumnArray>>, writers: seq<ColumnWriter>,
                       sent: seq<seq<ColumnArray>>, chunks: seq<ColumnChunk>,
                       arrays: seq<ColumnArray>, fileType: FileType, nominal: nat, sizes: seq<nat>, rows: nat)
    requires ClosedChunks(chunks, tasks, writers, sent)
    requires SentSlices(sent, sent0, arrays, sizes)
    requires forall j :: 0 <= j < |arrays| ==> arrays[j] == GeneratedArray(fileType, nominal, j)
    requires forall k :: 0 <= k < |sizes| ==> sizes[k] <= nominal
    requires Sum(sizes) == rows
    ensures RowGroupFromSlices(chunks, tasks, sent0, writers, fileType, nominal, sizes, rows)
  {
    forall j | 0 <= j < |chunks|
      ensures AllMatch(tasks[j].field, sent0[j] + Slices(GeneratedArray(fileType, nominal, j), sizes))
      ensures chunks[j] == ExpectedChunk(writers[j], tasks[j].field, sent0[j] + Slices(GeneratedArray(fileType, nominal, j), sizes))
      ensures chunks[j].column == writers[j].column
      ensures ChunkRows(chunks[j]) == LeafRows(writers[j].written) + TotalRows(sent0[j]) + rows
    {
      ColumnFromSlices(j, chunks[j], writers[j], tasks[j].field, sent[j], sent0[j], arrays[j],
                       fileType, nominal, sizes, rows);
    }
  }

  datatype RowGroupError =
    | BatchCreationFailed(cause: ArrowError)  // the `unwrap` in `create_batch`
    | ColumnTaskPanicked(column: nat)         // a column task's panic, re-raised by `join_all`

  /** Every column so far is well-typed and `batch` has the types of the
      encoder's fields. */
  ghost predicate Matches(encoder: RowGroupEncoder, batch: RecordBatch)
    reads encoder
    requires encoder.Valid()
  {
    && encoder.WellTyped()
    && |encoder.tasks| <= |batch.columns|
    && forall j :: 0 <= j < |encoder.tasks| ==> batch.columns[j].dataType == encoder.tasks[j].field.dataType
  }

  /** The encoder `encode_row_group` is given in `ParquetFileSpec::create`:
      nothing sent so far has the wrong type, and it has no more tasks than
      the file has columns, each for a field of the file type's data type. */
  ghost predicate Healthy(encoder: RowGroupEncoder, fileType: FileType, columns: nat)
    reads encoder
    requires encoder.Valid()
  {
    && encoder.WellTyped()
    && |encoder.tasks| <= columns
    && forall j :: 0 <= j < |encoder.tasks| ==> encoder.tasks[j].field.dataType == ColumnType(fileType)
  }

  /** Some task among the file's columns has a field of another type than
      the file type's. */
  ghost predicate Misfit(encoder: RowGroupEncoder, fileType: FileType, columns: nat)
    reads encoder
  {
    exists j :: 0 <= j < |encoder.tasks| && j < columns && encoder.tasks[j].field.dataType != ColumnType(fileType)
  }

  /** A misfit task clashes with a batch of the file type's columns. */
  lemma MisfitClashes(encoder: RowGroupEncoder, fileType: FileType, columns: nat, batch: RecordBatch)
    requires |batch.columns| == columns
    requires forall j :: 0 <= j < columns ==> batch.columns[j].dataType == ColumnType(fileType)
    requires Misfit(encoder, fileType, columns)
    ensures TypeClash(encoder.tasks, encoder.sent, batch.columns)
  {
    var j :| 0 <= j < |encoder.tasks| && j < columns && encoder.tasks[j].field.dataType != ColumnType(fileType);
    assert batch.columns[j].dataType != encoder.tasks[j].field.dataType;
  }

  /** A healthy encoder matches a batch of the file type's columns. */
  lemma HealthyBatchMatches(encoder: RowGroupEncoder, fileType: FileType, columns: nat, batch: RecordBatch)
    requires encoder.Valid() && Healthy(encoder, fileType, columns)
    requires |batch.columns| == columns
    requires forall j :: 0 <= j < columns ==> batch.columns[j].dataType == ColumnType(fileType)
    ensures Matches(encoder, batch)
  {
  }

  /** Arrays of the same types clash with the encoder alike. */
  lemma SameTypesSameClash(ts: seq<ColumnTask>, sent: seq<seq<ColumnArray>>, a: seq<ColumnArray>, b: seq<ColumnArray>)
    requires |a| == |b| && forall j :: 0 <= j < |a| ==> a[j].dataType == b[j].dataType
    requires TypeClash(ts, sent, a)
    ensures TypeClash(ts, sent, b)
  {
    if exists j :: 0 <= j < |ts| && j < |a| && a[j].dataType != ts[j].field.dataType {
      var j :| 0 <= j < |ts| && j < |a| && a[j].dataType != ts[j].field.dataType;
      assert b[j].dataType != ts[j].field.dataType;
    }
  }

  /** Column `j` has been sent only arrays of its field's type, and the
      batch's array `j`, if there is one, has that type too. */
  ghost predicate ColumnFits(ts: seq<ColumnTask>, sent: seq<seq<ColumnArray>>, columns: seq<ColumnArray>, j: nat) {
    && j < |ts| && j < |sent| && AllMatch(ts[j].field, sent[j])
    && (j < |columns| ==> columns[j].dataType == ts[j].field.dataType)
  }

  /** Every column that fitted `columns` before still fits them. */
  ghost predicate FitsKept(ts0: seq<ColumnTask>, sent0: seq<seq<ColumnArray>>, ts: seq<ColumnTask>,
                           sent: seq<seq<ColumnArray>>, columns: seq<ColumnArray>) {
    forall j: nat :: ColumnFits(ts0, sent0, columns, j) ==> ColumnFits(ts, sent, columns, j)
  }

  lemma FitsKeptTrans(ts0: seq<ColumnTask>, sent0: seq<seq<ColumnArray>>, ts1: seq<ColumnTask>,
                      sent1: seq<seq<ColumnArray>>, ts: seq<ColumnTask>, sent: seq<seq<ColumnArray>>,
                      columns: seq<ColumnArray>)
    requires FitsKept(ts0, sent0, ts1, sent1, columns) && FitsKept(ts1, sent1, ts, sent, columns)
    ensures FitsKept(ts0, sent0, ts, sent, columns)
  {
  }

  /** Sending a column an array of its field's type keeps it fitting. */
  lemma MatchExtends(field: Field, arrays: seq<ColumnArray>, a: ColumnArray)
    requires AllMatch(field, arrays) && a.dataType == field.dataType
    ensures AllMatch(field, arrays + [a])
  {
    forall k | 0 <= k < |arrays| + 1 ensures (arrays + [a])[k].dataType == field.dataType {
      if k < |arrays| {
        assert (arrays + [a])[k] == arrays[k];
      }
    }
  }

  /** A batch whose array `j` has the type of the batch's array `j`,
      delivered to the first `delivered` columns, keeps every fitting column
      fitting. */
  lemma FitsAfterBatch(ts0: seq<ColumnTask>, sent0: seq<seq<ColumnArray>>, ts: seq<ColumnTask>,
                       sent: seq<seq<ColumnArray>>, columns: seq<ColumnArray>, next: seq<ColumnArray>,
                       delivered: nat)
    requires |ts| == |ts0| && |sent| == |ts| && |sent0| == |ts|
    requires forall k :: 0 <= k < |ts| ==> ts[k].field == ts0[k].field
    requires |next| == |columns| && forall k :: 0 <= k < |next| ==> next[k].dataType == columns[k].dataType
    requires delivered <= |next| && delivered <= |ts|
    requires forall k :: 0 <= k < delivered ==> sent[k] == sent0[k] + [next[k]]
    requires forall k :: delivered <= k < |ts| ==> sent[k] == sent0[k]
    ensures FitsKept(ts0, sent0, ts, sent, columns)
  {
    forall j: nat | ColumnFits(ts0, sent0, columns, j) ensures ColumnFits(ts, sent, columns, j) {
      if j < delivered {
        MatchExtends(ts[j].field, sent0[j], next[j]);
      }
    }
  }

  /** One turn of the loop of `encode_row_group`: encode `batch`, or its
      first `rowsLeft` rows when fewer than a whole batch remain. */
  method SubmitNext(encoder: RowGroupEncoder, batch: RecordBatch, rowsLeft: nat,
                    ghost start: seq<seq<ColumnArray>>, ghost sizes: seq<nat>)
    returns (size: nat)
    requires encoder.Valid() && encoder.SendersOpen()
    requires WellFormed(batch) && 0 < rowsLeft && 0 < batch.numRows
    modifies encoder
    ensures encoder.Valid() && encoder.SendersOpen() && encoder.SameTasks(old(encoder.tasks))
    ensures encoder.initialWriters == old(encoder.initialWriters)
    ensures size == if rowsLeft < batch.numRows then rowsLeft else batch.numRows
    ensures old(Matches(encoder, batch)) && old(SentSlices(encoder.sent, start, batch.columns, sizes))
            ==> Matches(encoder, batch) && SentSlices(encoder.sent, start, batch.columns, sizes + [size])
    ensures old(TypeClash(encoder.tasks, encoder.sent, batch.columns)) || !old(encoder.WellTyped())
            ==> !encoder.WellTyped()
    ensures FitsKept(old(encoder.tasks), old(encoder.sent), encoder.tasks, encoder.sent, batch.columns)
  {
    ghost var fed := Matches(encoder, batch) && SentSlices(encoder.sent, start, batch.columns, sizes);
    var next := if rowsLeft < batch.numRows then SliceBatch(batch, rowsLeft) else batch;
    if !encoder.WellTyped() {
      MismatchClashes(encoder.tasks, encoder.sent, batch.columns);
    }
    if TypeClash(encoder.tasks, encoder.sent, batch.columns) {
      SameTypesSameClash(encoder.tasks, encoder.sent, batch.columns, next.columns);
    }
    size := next.numRows;
    ghost var tasks0 := encoder.tasks;
    ghost var before := encoder.sent;
    if fed {
      forall j | 0 <= j < |next.columns| && j < |encoder.tasks|
        ensures next.columns[j].dataType == encoder.tasks[j].field.dataType
      {
        assert next.columns[j].dataType == batch.columns[j].dataType;
      }
    }
    ghost var delivered := encoder.EncodeBatch(next);
    FitsAfterBatch(tasks0, before, encoder.tasks, encoder.sent, batch.columns, next.columns, delivered);
    if fed {
      forall j | 0 <= j < |encoder.tasks|
        ensures batch.columns[j].dataType == encoder.tasks[j].field.dataType
        ensures size <= |batch.columns[j].cells| && next.columns[j] == Prefix(batch.columns[j], size)
      {
        assert encoder.tasks[j].field == tasks0[j].field;
      }
      SlicesAdvance(start, before, encoder.sent, batch.columns, next.columns, sizes, size);
    }
  }

  /** The loop of `encode_row_group`: while fewer than `rowsPerRowGroup`
      rows are written, encode `batch`, or its first `rows_left` rows when
      fewer than a whole batch remain. When every column so far is
      well-typed and `batch` matches the encoder's fields, each column has
      then been sent exactly the slices `sizes` of its array. */
  method SubmitRows(encoder: RowGroupEncoder, batch: RecordBatch, rowsPerRowGroup: nat)
    returns (ghost sizes: seq<nat>)
    requires encoder.Valid() && encoder.SendersOpen()
    requires WellFormed(batch) && (rowsPerRowGroup > 0 ==> batch.numRows > 0)
    modifies encoder
    ensures encoder.Valid() && encoder.SendersOpen() && encoder.SameTasks(old(encoder.tasks))
    ensures encoder.initialWriters == old(encoder.initialWriters)
    ensures sizes == BatchSizes(rowsPerRowGroup, batch.numRows)
    ensures old(Matches(encoder, batch))
            ==> Matches(encoder, batch) && SentSlices(encoder.sent, old(encoder.sent), batch.columns, sizes)
    ensures !old(encoder.WellTyped()) || (rowsPerRowGroup > 0 && old(TypeClash(encoder.tasks, encoder.sent, batch.columns)))
            ==> !encoder.WellTyped()
    ensures FitsKept(old(encoder.tasks), old(encoder.sent), encoder.tasks, encoder.sent, batch.columns)
  {
    ghost var start := encoder.sent;
    ghost var wellTyped0 := encoder.WellTyped();
    ghost var clash0 := TypeClash(encoder.tasks, encoder.sent, batch.columns);
    ghost var tasks0 := encoder.tasks;
    ghost var healthy := Matches(encoder, batch);
    if healthy {
      SentNoSlices(start, batch.columns);
    }
    var numRows := batch.numRows;
    sizes := [];
    var rowsWritten: nat := 0;
    while rowsWritten < rowsPerRowGroup
      invariant rowsWritten <= rowsPerRowGroup
      invariant OnTrack(sizes, rowsWritten, numRows, rowsPerRowGroup)
      invariant forall k :: 0 <= k < |sizes| ==> sizes[k] <= numRows
      invariant encoder.Valid() && encoder.SendersOpen() && encoder.SameTasks(tasks0)
      invariant encoder.initialWriters == old(encoder.initialWriters)
      invariant healthy ==> Matches(encoder, batch) && SentSlices(encoder.sent, start, batch.columns, sizes)
      invariant rowsWritten == 0 ==> encoder.tasks == tasks0 && encoder.sent == start
      invariant (!wellTyped0 || (clash0 && rowsWritten > 0)) ==> !encoder.WellTyped()
      invariant FitsKept(tasks0, start, encoder.tasks, encoder.sent, batch.columns)
      decreases rowsPerRowGroup - rowsWritten
    {
      ghost var tasksBefore, sentBefore := encoder.tasks, encoder.sent;
      var size := SubmitNext(encoder, batch, rowsPerRowGroup - rowsWritten, start, sizes);
      FitsKeptTrans(tasks0, start, tasksBefore, sentBefore, encoder.tasks, encoder.sent, batch.columns);
      assert encoder.SameTasks(tasks0) by {
        assert forall k :: 0 <= k < |encoder.tasks| ==> encoder.tasks[k].field == tasksBefore[k].field;
      }
      BatchSizesStep(sizes, rowsWritten, size, numRows, rowsPerRowGroup);
      rowsWritten := rowsWritten + size;
      sizes := sizes + [size];
    }
    OnTrackDone(sizes, numRows, rowsPerRowGroup);
  }

  /** The end of `encode_row_group`: submit exactly `rowsPerRowGroup` rows
      of `batch`, then close the encoder, its tasks completing in
      `completionOrder`. When every column so far is well-typed and `batch`
      matches the encoder's fields, closing succeeds, each column has been
      sent the slices `sizes` of its array, and the chunk of column `j` is
      the one its writer makes from everything it was sent. */
  method SubmitAndClose(encoder: RowGroupEncoder, batch: RecordBatch, rowsPerRowGroup: nat, completionOrder: seq<nat>)
    returns (closed: Result<seq<ColumnChunk>, CloseError>, ghost sizes: seq<nat>)
    requires encoder.Valid() && encoder.SendersOpen()
    requires WellFormed(batch) && (rowsPerRowGroup > 0 ==> batch.numRows > 0)
    requires IsPermutationOf(completionOrder, |encoder.tasks|)
    modifies encoder
    ensures encoder.Valid() && encoder.SameTasks(old(encoder.tasks))
    ensures encoder.initialWriters == old(encoder.initialWriters)
    ensures sizes == BatchSizes(rowsPerRowGroup, batch.numRows) && Sum(sizes) == rowsPerRowGroup
    ensures forall k :: 0 <= k < |sizes| ==> 1 <= sizes[k] <= batch.numRows
    ensures closed.Ok? <==> forall j :: 0 <= j < |encoder.tasks| ==> encoder.tasks[j].state.Completed?
    ensures closed.Ok? <==> encoder.WellTyped()
    ensures closed.Ok? ==> ClosedChunks(closed.value, encoder.tasks, encoder.initialWriters, encoder.sent)
    ensures closed.Err? ==> closed.error.column < |encoder.tasks| && encoder.tasks[closed.error.column].state.Panicked?
    ensures !old(encoder.WellTyped()) || (rowsPerRowGroup > 0 && old(TypeClash(encoder.tasks, encoder.sent, batch.columns)))
            ==> closed.Err?
    ensures old(Matches(encoder, batch)) ==>
              closed.Ok? && SentSlices(encoder.sent, old(encoder.sent), batch.columns, sizes)
    ensures closed.Err? ==> !old(ColumnFits(encoder.tasks, encoder.sent, batch.columns, closed.error.column))
  {
    sizes := SubmitRows(encoder, batch, rowsPerRowGroup);
    BatchSizesSum(rowsPerRowGroup, batch.numRows);
    BatchSizesShape(rowsPerRowGroup, batch.numRows);
    ghost var tasks1 := encoder.tasks;
    closed := encoder.Close(completionOrder);
    if closed.Err? {
      // the panicked task was sent an array of the wrong type
      var c := closed.error.column;
      assert ColumnValid(c, encoder.queues[c], encoder.tasks[c], encoder.sent[c], encoder.received[c],
                         encoder.initialWriters[c]);
      assert tasks1[c].field == encoder.tasks[c].field;
      assert !ColumnFits(tasks1, encoder.sent, batch.columns, c);
    }
  }

  /** The rest of `encode_row_group` once `batch`, the file's `columns`
      generated arrays of `NominalRows(rowsPerRowGroup)` rows, exists. */
  method SubmitGenerated(fileType: FileType, columns: nat, rowsPerRowGroup: nat,
                         encoder: RowGroupEncoder, batch: RecordBatch, completionOrder: seq<nat>)
    returns (r: Result<seq<ColumnChunk>, RowGroupError>, ghost sizes: seq<nat>)
    requires encoder.Valid() && encoder.SendersOpen()
    requires IsPermutationOf(completionOrder, |encoder.tasks|)
    requires WellFormed(batch) && columns > 0 && |batch.columns| == columns
    requires batch.numRows == NominalRows(rowsPerRowGroup)
    requires forall j :: 0 <= j < |batch.columns| ==> batch.columns[j] == GeneratedArray(fileType, batch.numRows, j)
    modifies encoder
    ensures encoder.Valid() && encoder.SameTasks(old(encoder.tasks))
    ensures encoder.initialWriters == old(encoder.initialWriters)
    ensures sizes == BatchSizes(rowsPerRowGroup, NominalRows(rowsPerRowGroup))
    ensures Sum(sizes) == rowsPerRowGroup
    ensures forall k :: 0 <= k < |sizes| ==> 1 <= sizes[k] <= NominalRows(rowsPerRowGroup)
    ensures old(Healthy(encoder, fileType, columns))
            ==> r.Ok? && RowGroupFromSlices(r.value, encoder.tasks, old(encoder.sent), encoder.initialWriters,
                                            fileType, NominalRows(rowsPerRowGroup), sizes, rowsPerRowGroup)
    ensures (r.Ok? <==> forall j :: 0 <= j < |encoder.tasks| ==> encoder.tasks[j].state.Completed?)
    ensures r.Ok? ==> ClosedChunks(r.value, encoder.tasks, encoder.initialWriters, encoder.sent)
    ensures r.Err? && r.error.ColumnTaskPanicked? ==>
              r.error.column < |encoder.tasks| && encoder.tasks[r.error.column].state.Panicked?
    ensures (!old(encoder.WellTyped()) || (rowsPerRowGroup > 0 && old(Misfit(encoder, fileType, columns))))
            ==> r.Err? && r.error.ColumnTaskPanicked?
    ensures r.Err? && r.error.ColumnTaskPanicked? ==>
              var c := r.error.column;
              old(!AllMatch(encoder.tasks[c].field, encoder.sent[c])
                  || (c < columns && encoder.tasks[c].field.dataType != ColumnType(fileType)))
  {
    ghost var sent0 := encoder.sent;
    ghost var healthy := Healthy(encoder, fileType, columns);
    if healthy {
      HealthyBatchMatches(encoder, fileType, columns, batch);
    }
    if Misfit(encoder, fileType, columns) {
      MisfitClashes(encoder, fileType, columns, batch);
    }
    var closed;
    closed, sizes := SubmitAndClose(encoder, batch, rowsPerRowGroup, completionOrder);
    if closed.Ok? && healthy {
      RowGroupChunks(encoder.tasks, sent0, encoder.initialWriters, encoder.sent, closed.value, batch.columns,
                     fileType, batch.numRows, sizes, rowsPerRowGroup);
    }
    r := if closed.Ok? then Ok(closed.value) else Err(ColumnTaskPanicked(closed.error.column));
  }

  /** `encode_row_group(file_type, columns, rows_per_row_group, encoder)`:
      create one batch of `min(rows_per_row_group, 100)` rows with seed 0,
      submit exactly `rows_per_row_group` rows of it, then close the
      encoder, its tasks completing in `completionOrder`. `sizes` records
      the rows of each batch submitted. When the encoder is healthy and
      its fields have the file type's data type, closing succeeds and
      column `j` of the row group is the chunk its writer produces from
      what it held before and then the slices of generated array `j`:
      `rows_per_row_group` more rows, in column order. */
  method EncodeRowGroup(fileType: FileType, columns: nat, rowsPerRowGroup: nat,
                        encoder: RowGroupEncoder, completionOrder: seq<nat>)
    returns (r: Result<seq<ColumnChunk>, RowGroupError>, ghost sizes: seq<nat>)
    requires encoder.Valid() && encoder.SendersOpen()
    requires IsPermutationOf(completionOrder, |encoder.tasks|)
    modifies encoder
    ensures encoder.Valid() && encoder.SameTasks(old(encoder.tasks))
    ensures encoder.initialWriters == old(encoder.initialWriters)
    ensures columns == 0 ==> r == Err(BatchCreationFailed(NoColumns))
    ensures columns > 0 ==> sizes == BatchSizes(rowsPerRowGroup, NominalRows(rowsPerRowGroup))
    ensures columns > 0 ==> Sum(sizes) == rowsPerRowGroup
    ensures forall k :: 0 <= k < |sizes| ==> 1 <= sizes[k] <= NominalRows(rowsPerRowGroup)
    ensures columns > 0 && old(Healthy(encoder, fileType, columns))
            ==> r.Ok? && RowGroupFromSlices(r.value, encoder.tasks, old(encoder.sent), encoder.initialWriters,
                                            fileType, NominalRows(rowsPerRowGroup), sizes, rowsPerRowGroup)
    ensures columns > 0 ==> (r.Ok? <==> forall j :: 0 <= j < |encoder.tasks| ==> encoder.tasks[j].state.Completed?)
    ensures r.Ok? ==> ClosedChunks(r.value, encoder.tasks, encoder.initialWriters, encoder.sent)
    ensures r.Err? && r.error.ColumnTaskPanicked? ==>
              r.error.column < |encoder.tasks| && encoder.tasks[r.error.column].state.Panicked?
    ensures columns > 0 && (!old(encoder.WellTyped()) || (rowsPerRowGroup > 0 && old(Misfit(encoder, fileType, columns))))
            ==> r.Err? && r.error.ColumnTaskPanicked?
    ensures r.Err? && r.error.ColumnTaskPanicked? ==>
              var c := r.error.column;
              old(!AllMatch(encoder.tasks[c].field, encoder.sent[c])
                  || (c < columns && encoder.tasks[c].field.dataType != ColumnType(fileType)))
  {
    var numRows := NominalRows(rowsPerRowGroup);
    // one batch, generated once and submitted again and again
    var created := CreateBatch(fileType, 0, numRows, columns);
    if created.Err? {
      r, sizes := Err(BatchCreationFailed(created.error)), [];
      return;
    }
    var batch := created.value;
    assert forall j :: 0 <= j < |batch.columns| ==> batch.columns[j] == GeneratedArray(fileType, numRows, j) by {
      forall j | 0 <= j < columns ensures ArraySeed(0, columns, j) == j {}
    }
    r, sizes := SubmitGenerated(fileType, columns, rowsPerRowGroup, encoder, batch, completionOrder);
  }
}

=== FILE: row_group_encoder.dfy ===
/** `RowGroupEncoder` (src/parquet_file.rs): one bounded channel and one
    encoding task per column. `encode_batch` fans a batch's arrays out to
    the channels; each task turns the arrays it receives into leaves and
    writes them to its column writer; `close` ends the input, waits for
    every task and puts their chunks back into column order.

    The tasks run concurrently in the source. Here they are interleaved
    with the producer in one sequence of steps: a task takes an array
    (ReceiveOne) whenever it is scheduled, and at the latest when the
    producer waits on its full channel or when the encoder is closed. The
    order in which tasks complete is a parameter of Close. */
module RowGroupEncoding {
  import opened Wrappers
  import opened Arrow
  import opened ColumnOrder

  /** `buffer_size`: arrays a channel holds before a send waits. */
  const ChannelCapacity: nat := 2

  /** One column's channel: the arrays sent and not yet received, whether
      the sender (in `writer_txs`) still exists and whether the receiver
      (inside the task) still exists. */
  datatype Queue = Queue(buffer: seq<ColumnArray>, senderOpen: bool, receiverOpen: bool)

  /** Where a column task is: in its receive loop, ended by a panic, or
      completed with its chunk. */
  datatype TaskState = Receiving | Panicked | Completed(chunk: ColumnChunk)

  /** One spawned column task and what it captured: its column index, its
      schema field and its column writer. */
  datatype ColumnTask = ColumnTask(index: nat, field: Field, writer: ColumnWriter, state: TaskState)

  /** `join_all` re-raises the panic of a task. */
  datatype CloseError = TaskPanicked(column: nat)

  /** Every array has the field's data type, so `compute_leaves` accepts each. */
  predicate AllMatch(field: Field, arrays: seq<ColumnArray>) {
    forall k :: 0 <= k < |arrays| ==> arrays[k].dataType == field.dataType
  }

  /** Rows in a sequence of arrays. */
  function TotalRows(arrays: seq<ColumnArray>): nat
    decreases |arrays|
  {
    if arrays == [] then 0 else TotalRows(arrays[..|arrays| - 1]) + |arrays[|arrays| - 1].cells|
  }

  lemma {:induction false} TotalRowsAppend(a: seq<ColumnArray>, b: seq<ColumnArray>)
    ensures TotalRows(a + b) == TotalRows(a) + TotalRows(b)
    decreases |b|
  {
    if b == [] {
      assert a + b == a;
    } else {
      assert (a + b)[..|a + b| - 1] == a + b[..|b| - 1];
      TotalRowsAppend(a, b[..|b| - 1]);
    }
  }

  /** The leaves a column task writes for the arrays it receives, in
      receipt order: those of each array in turn. */
  function LeavesOf(field: Field, arrays: seq<ColumnArray>): seq<Leaf>
    requires AllMatch(field, arrays)
    decreases |arrays|
  {
    if arrays == [] then []
    else LeavesOf(field, arrays[..|arrays| - 1]) + ComputeLeaves(field, arrays[|arrays| - 1]).value
  }

  /** The leaves hold exactly the rows of the arrays they were computed from. */
  lemma {:induction false} LeavesOfRows(field: Field, arrays: seq<ColumnArray>)
    requires AllMatch(field, arrays)
    ensures LeafRows(LeavesOf(field, arrays)) == TotalRows(arrays)
    decreases |arrays|
  {
    if arrays != [] {
      var front, last := arrays[..|arrays| - 1], arrays[|arrays| - 1];
      LeavesOfRows(field, front);
      LeafRowsAppend(LeavesOf(field, front), ComputeLeaves(field, last).value);
    }
  }

  lemma {:induction false} LeavesOfAppend(field: Field, a: seq<ColumnArray>, b: seq<ColumnArray>)
    requires AllMatch(field, a) && AllMatch(field, b)
    ensures AllMatch(field, a + b)
    ensures LeavesOf(field, a + b) == LeavesOf(field, a) + LeavesOf(field, b)
    decreases |b|
  {
    if b == [] {
      assert a + b == a;
    } else {
      assert (a + b)[..|a + b| - 1] == a + b[..|b| - 1];
      LeavesOfAppend(field, a, b[..|b| - 1]);
    }
  }

  /** The chunk a column task hands back when the arrays it was sent are
      `sent` and it started from writer `w0`: it names the writer's column. */
  function ExpectedChunk(w0: ColumnWriter, field: Field, sent: seq<ColumnArray>): (c: ColumnChunk)
    requires AllMatch(field, sent)
    ensures c.column == w0.column
  {
    CloseWriter(WriteAll(w0, LeavesOf(field, sent)))
  }

  /** The chunk holds the rows the writer held, then those of every array
      sent. */
  lemma ExpectedChunkRows(w0: ColumnWriter, field: Field, sent: seq<ColumnArray>)
    requires AllMatch(field, sent)
    ensures ChunkRows(ExpectedChunk(w0, field, sent)) == LeafRows(w0.written) + TotalRows(sent)
  {
    LeavesOfRows(field, sent);
    LeafRowsAppend(w0.written, LeavesOf(field, sent));
  }

  /** The invariant of column `j`: its channel holds at most
      ChannelCapacity arrays; while the task receives, what was sent is
      what it received followed by what is queued (FIFO), and its writer
      holds the leaves of what it received; a task panicked only if it was
      sent an array of the wrong type; a task completed only after the
      sender was dropped, and then with the chunk of everything sent. */
  ghost predicate ColumnValid(j: nat, q: Queue, t: ColumnTask, sent: seq<ColumnArray>,
                              received: seq<ColumnArray>, w0: ColumnWriter)
  {
    && t.index == j
    && |q.buffer| <= ChannelCapacity
    && (q.receiverOpen <==> t.state.Receiving?)
    && (q.receiverOpen ==> sent == received + q.buffer)
    && (!q.receiverOpen ==> q.buffer == [])
    && (t.state.Receiving? ==>
          AllMatch(t.field, received) && t.writer == WriteAll(w0, LeavesOf(t.field, received)))
    && (t.state.Panicked? ==> !AllMatch(t.field, sent))
    && (t.state.Completed? ==>
          !q.senderOpen && sent == received && AllMatch(t.field, sent)
          && t.state.chunk == ExpectedChunk(w0, t.field, sent))
  }

  /** Receiving one more array of the field's type: the arrays still all
      match, and the leaves of the new array follow those already written. */
  lemma LeavesOfSnoc(field: Field, received: seq<ColumnArray>, a: ColumnArray)
    requires AllMatch(field, received) && a.dataType == field.dataType
    ensures AllMatch(field, received + [a])
    ensures LeavesOf(field, received + [a]) == LeavesOf(field, received) + ComputeLeaves(field, a).value
  {
    var r' := received + [a];
    assert forall k :: 0 <= k < |received| ==> r'[k] == received[k];
    assert r'[..|r'| - 1] == received;
  }

  /** Writing two runs of leaves is writing them one after the other. */
  lemma WriteAllConcat(w: ColumnWriter, first: seq<Leaf>, second: seq<Leaf>)
    ensures WriteAll(WriteAll(w, first), second) == WriteAll(w, first + second)
  {
    assert w.written + first + second == w.written + (first + second);
  }

  /** Taking a well-typed array off the channel and writing its leaves
      keeps the column invariant. */
  lemma ReceiveKeepsColumnValid(j: nat, q: Queue, t: ColumnTask, sent: seq<ColumnArray>,
                                received: seq<ColumnArray>, w0: ColumnWriter)
    requires ColumnValid(j, q, t, sent, received, w0)
    requires t.state.Receiving? && q.buffer != [] && q.buffer[0].dataType == t.field.dataType
    ensures ColumnValid(j, q.(buffer := q.buffer[1..]),
                        t.(writer := WriteAll(t.writer, ComputeLeaves(t.field, q.buffer[0]).value)),
                        sent, received + [q.buffer[0]], w0)
  {
    var a := q.buffer[0];
    LeavesOfSnoc(t.field, received, a);
    WriteAllConcat(w0, LeavesOf(t.field, received), ComputeLeaves(t.field, a).value);
    assert q.buffer == [a] + q.buffer[1..];
    assert sent == (received + [a]) + q.buffer[1..];
  }

  /** Taking an array of the wrong type panics the task; the invariant
      still holds with the receiver gone. */
  lemma PanicKeepsColumnValid(j: nat, q: Queue, t: ColumnTask, sent: seq<ColumnArray>,
                              received: seq<ColumnArray>, w0: ColumnWriter)
    requires ColumnValid(j, q, t, sent, received, w0)
    requires t.state.Receiving? && q.buffer != [] && q.buffer[0].dataType != t.field.dataType
    ensures ColumnValid(j, q.(buffer := [], receiverOpen := false), t.(state := Panicked),
                        sent, received + [q.buffer[0]], w0)
  {
    assert sent[|received|] == q.buffer[0];
  }

  /** Sending `a` on a channel with room and a live receiver queues it
      behind the arrays already there. */
  lemma SendKeepsColumnValid(j: nat, q: Queue, t: ColumnTask, sent: seq<ColumnArray>,
                             received: seq<ColumnArray>, w0: ColumnWriter, a: ColumnArray)
    requires ColumnValid(j, q, t, sent, received, w0)
    requires q.receiverOpen && |q.buffer| < ChannelCapacity
    ensures ColumnValid(j, q.(buffer := q.buffer + [a]), t, sent + [a], received, w0)
  {
    assert sent + [a] == received + (q.buffer + [a]);
  }

  /** With the sender gone and the channel drained, the task's `recv`
      returns `None`: it closes its writer and completes with the chunk of
      everything sent. */
  lemma CompleteKeepsColumnValid(j: nat, q: Queue, t: ColumnTask, sent: seq<ColumnArray>,
                                 received: seq<ColumnArray>, w0: ColumnWriter)
    requires ColumnValid(j, q, t, sent, received, w0)
    requires t.state.Receiving? && q.buffer == [] && !q.senderOpen
    ensures ColumnValid(j, q.(receiverOpen := false), t.(state := Completed(CloseWriter(t.writer))),
                        sent, received, w0)
  {
    assert sent == received + q.buffer == received;
  }

  /** One turn of a column task's receive loop, on the channel `q` and
      the task `t` of column `j`: take the oldest array, compute its leaves
      and write them in order; on an array of the wrong type the task
      panics and its receiver is dropped with whatever is still queued.
      Either way the column invariant holds with the array received. */
  method TakeArray(j: nat, q: Queue, t: ColumnTask, ghost sent: seq<ColumnArray>,
                   ghost received: seq<ColumnArray>, ghost w0: ColumnWriter)
    returns (q': Queue, t': ColumnTask)
    requires ColumnValid(j, q, t, sent, received, w0) && t.state.Receiving? && q.buffer != []
    ensures ColumnValid(j, q', t', sent, received + [q.buffer[0]], w0)
    ensures t'.field == t.field && q'.senderOpen == q.senderOpen && |q'.buffer| < |q.buffer|
    ensures q.buffer[0].dataType == t.field.dataType ==> t'.state.Receiving? && q'.buffer == q.buffer[1..]
    ensures q.buffer[0].dataType != t.field.dataType ==> t'.state.Panicked? && !q'.receiverOpen
  {
    var a := q.buffer[0];
    var leaves := ComputeLeaves(t.field, a);
    if leaves.Err? {
      PanicKeepsColumnValid(j, q, t, sent, received, w0);
      q', t' := q.(buffer := [], receiverOpen := false), t.(state := Panicked);
    } else {
      var writer := WriteLeaves(t.writer, leaves.value);
      ReceiveKeepsColumnValid(j, q, t, sent, received, w0);
      q', t' := q.(buffer := q.buffer[1..]), t.(writer := writer);
    }
  }

  /** Once a column holds an array of the wrong type it keeps one: sending
      more on it does not mend it. */
  lemma MismatchPersists(field: Field, arrays: seq<ColumnArray>, a: ColumnArray)
    requires !AllMatch(field, arrays) || a.dataType != field.dataType
    ensures !AllMatch(field, arrays + [a])
  {
    if !AllMatch(field, arrays) {
      var i :| 0 <= i < |arrays| && arrays[i].dataType != field.dataType;
      assert (arrays + [a])[i] == arrays[i];
    } else {
      assert (arrays + [a])[|arrays|] == a;
    }
  }

  /** Encoding a batch whose arrays are `columns` cannot leave every column
      well typed: some column already holds an array of the wrong type, or
      the array for some task has a type other than the task's field. */
  ghost predicate TypeClash(ts: seq<ColumnTask>, sent: seq<seq<ColumnArray>>, columns: seq<ColumnArray>) {
    || (exists k :: 0 <= k < |ts| && k < |sent| && !AllMatch(ts[k].field, sent[k]))
    || (exists j :: 0 <= j < |ts| && j < |columns| && columns[j].dataType != ts[j].field.dataType)
  }

  /** A column holding an array of the wrong type is a clash with any batch. */
  lemma MismatchClashes(ts: seq<ColumnTask>, sent: seq<seq<ColumnArray>>, columns: seq<ColumnArray>)
    requires |sent| == |ts| && !(forall k :: 0 <= k < |ts| ==> AllMatch(ts[k].field, sent[k]))
    ensures TypeClash(ts, sent, columns)
  {
  }

  /** After `encode_batch` delivered the batch to the first `delivered`
      columns and stopped at a panicked task, a clash leaves some column
      holding an array of the wrong type. */
  lemma ClashAfterBatch(qs: seq<Queue>, ts: seq<ColumnTask>, sent: seq<seq<ColumnArray>>,
                        received: seq<seq<ColumnArray>>, w0: seq<ColumnWriter>,
                        ts0: seq<ColumnTask>, sent0: seq<seq<ColumnArray>>, columns: seq<ColumnArray>, delivered: nat)
    requires EncoderInv(qs, ts, sent, received, w0)
    requires |ts0| == |ts| == |sent0|
    requires forall k :: 0 <= k < |ts| ==> ts[k].field == ts0[k].field
    requires delivered <= |columns| && delivered <= |ts|
    requires forall k :: 0 <= k < delivered ==> sent[k] == sent0[k] + [columns[k]]
    requires forall k :: delivered <= k < |ts| ==> sent[k] == sent0[k]
    requires delivered < |columns| && delivered < |ts| ==> ts[delivered].state.Panicked?
    requires TypeClash(ts0, sent0, columns)
    ensures !(forall k :: 0 <= k < |ts| ==> AllMatch(ts[k].field, sent[k]))
  {
    if delivered < |columns| && delivered < |ts| {
      // the batch stopped at a panicked task, which holds a wrong array
      assert ColumnValid(delivered, qs[delivered], ts[delivered], sent[delivered], received[delivered], w0[delivered]);
      assert !AllMatch(ts[delivered].field, sent[delivered]);
    } else if exists k :: 0 <= k < |ts0| && k < |sent0| && !AllMatch(ts0[k].field, sent0[k]) {
      var k :| 0 <= k < |ts0| && k < |sent0| && !AllMatch(ts0[k].field, sent0[k]);
      if k < delivered {
        MismatchPersists(ts[k].field, sent0[k], columns[k]);
      }
      assert !AllMatch(ts[k].field, sent[k]);
    } else {
      // every column was delivered the batch, the wrong array among them
      var j :| 0 <= j < |ts0| && j < |columns| && columns[j].dataType != ts0[j].field.dataType;
      MismatchPersists(ts[j].field, sent0[j], columns[j]);
      assert !AllMatch(ts[j].field, sent[j]);
    }
  }

  /** Dropping the senders: every channel loses its sending end. */
  function DropSenders(qs: seq<Queue>): (r: seq<Queue>)
    ensures |r| == |qs|
    ensures forall k :: 0 <= k < |qs| ==> r[k] == qs[k].(senderOpen := false)
  {
    seq(|qs|, k requires 0 <= k < |qs| => qs[k].(senderOpen := false))
  }

  /** The invariant of every column of an encoder, over its channels, tasks,
      what was sent and received, and the writers the tasks were given. */
  ghost predicate EncoderInv(qs: seq<Queue>, ts: seq<ColumnTask>, sent: seq<seq<ColumnArray>>,
                             received: seq<seq<ColumnArray>>, w0: seq<ColumnWriter>)
  {
    && |qs| == |ts| && |sent| == |ts| && |received| == |ts| && |w0| == |ts|
    && forall j {:trigger ColumnValid(j, qs[j], ts[j], sent[j], received[j], w0[j])} :: 0 <= j < |ts| ==>
         ColumnValid(j, qs[j], ts[j], sent[j], received[j], w0[j])
  }

  /** A step of one column that keeps its invariant keeps the encoder's:
      the other columns are untouched. */
  lemma UpdateKeepsInv(qs: seq<Queue>, ts: seq<ColumnTask>, sent: seq<seq<ColumnArray>>,
                       received: seq<seq<ColumnArray>>, w0: seq<ColumnWriter>,
                       j: nat, q: Queue, t: ColumnTask, s: seq<ColumnArray>, r: seq<ColumnArray>)
    requires EncoderInv(qs, ts, sent, received, w0) && j < |ts|
    requires ColumnValid(j, q, t, s, r, w0[j])
    ensures EncoderInv(qs[j := q], ts[j := t], sent[j := s], received[j := r], w0)
  {
  }

  /** Dropping every sender keeps the encoder's invariant. */
  lemma DropSendersKeepsInv(qs: seq<Queue>, ts: seq<ColumnTask>, sent: seq<seq<ColumnArray>>,
                            received: seq<seq<ColumnArray>>, w0: seq<ColumnWriter>)
    requires EncoderInv(qs, ts, sent, received, w0)
    ensures EncoderInv(DropSenders(qs), ts, sent, received, w0)
  {
    forall j | 0 <= j < |ts| ensures ColumnValid(j, DropSenders(qs)[j], ts[j], sent[j], received[j], w0[j]) {
      assert ColumnValid(j, qs[j], ts[j], sent[j], received[j], w0[j]);
    }
  }

  /** A placeholder for the chunk of a task that has not completed. */
  function ChunkOf(s: TaskState): ColumnChunk {
    if s.Completed? then s.chunk else ColumnChunk(0, [])
  }

  /** The `(column_index, chunk)` pair each task would hand back, listed by
      task: when task `j` captured column index `j`, they are in column
      order. */
  ghost function TaskPairs(ts: seq<ColumnTask>): (r: seq<(nat, ColumnChunk)>)
    requires forall j :: 0 <= j < |ts| ==> ts[j].index == j
    ensures |r| == |ts| && InColumnOrder(r)
    ensures forall j :: 0 <= j < |ts| ==> r[j] == (ts[j].index, ChunkOf(ts[j].state))
  {
    seq(|ts|, j requires 0 <= j < |ts| => (ts[j].index, ChunkOf(ts[j].state)))
  }

  class RowGroupEncoder {
    /** The channel behind `writer_txs[j]`. */
    var queues: seq<Queue>
    /** The task of column `j` in `join_set`. */
    var tasks: seq<ColumnTask>
    /** Every array a send on channel `j` delivered, in order. */
    ghost var sent: seq<seq<ColumnArray>>
    /** Every array task `j` took off its channel, in order. */
    ghost var received: seq<seq<ColumnArray>>
    /** The writer task `j` was given. */
    ghost var initialWriters: seq<ColumnWriter>

    ghost predicate Valid()
      reads this
    {
      EncoderInv(queues, tasks, sent, received, initialWriters)
    }

    /** The encoder has not been closed: every sender still exists. */
    ghost predicate SendersOpen()
      reads this
    {
      forall j :: 0 <= j < |queues| ==> queues[j].senderOpen
    }

    /** Every array sent so far matches its column's field. */
    ghost predicate WellTyped()
      reads this
      requires Valid()
    {
      forall j :: 0 <= j < |tasks| ==> AllMatch(tasks[j].field, sent[j])
    }

    /** `RowGroupEncoder::new(schema, column_writers)`: for column `i`, a
        channel of capacity 2 and a task that owns writer `i` and schema
        field `i`. The schema must have a field for every writer. */
    constructor (schema: seq<Field>, columnWriters: seq<ColumnWriter>)
      requires |columnWriters| <= |schema|
      ensures Valid() && SendersOpen() && WellTyped()
      ensures |tasks| == |columnWriters| && initialWriters == columnWriters
      ensures forall j :: 0 <= j < |tasks| ==>
                tasks[j] == ColumnTask(j, schema[j], columnWriters[j], Receiving)
                && queues[j] == Queue([], true, true) && sent[j] == [] && received[j] == []
    {
      var joinSet: seq<ColumnTask> := [];
      var writerTxs: seq<Queue> := [];
      for columnIndex := 0 to |columnWriters|
        invariant |joinSet| == columnIndex && |writerTxs| == columnIndex
        invariant forall j :: 0 <= j < columnIndex ==>
                    joinSet[j] == ColumnTask(j, schema[j], columnWriters[j], Receiving)
                    && writerTxs[j] == Queue([], true, true)
      {
        var channel := Queue([], true, true);
        var field := schema[columnIndex];
        joinSet := joinSet + [ColumnTask(columnIndex, field, columnWriters[columnIndex], Receiving)];
        writerTxs := writerTxs + [channel];
      }
      queues := writerTxs;
      tasks := joinSet;
      sent := seq(|columnWriters|, _ => []);
      received := seq(|columnWriters|, _ => []);
      initialWriters := columnWriters;
      new;
      forall j | 0 <= j < |tasks|
        ensures ColumnValid(j, queues[j], tasks[j], sent[j], received[j], initialWriters[j])
      {
        assert initialWriters[j].written + [] == initialWriters[j].written;
      }
    }

    /** Every task keeps its index and field, and the set of tasks is the same. */
    ghost predicate SameTasks(before: seq<ColumnTask>)
      reads this
    {
      |tasks| == |before| && forall k :: 0 <= k < |tasks| ==> tasks[k].field == before[k].field
    }

    /** One turn of column task `j`'s receive loop: take the oldest array
        off its channel, compute its leaves and write them in order. If
        `compute_leaves` fails, its `unwrap` panics: the task ends and its
        receiver is dropped together with the arrays still queued. */
    method ReceiveOne(j: nat)
      requires Valid() && j < |tasks| && tasks[j].state.Receiving? && queues[j].buffer != []
      modifies this
      ensures Valid() && SameTasks(old(tasks))
      ensures sent == old(sent) && initialWriters == old(initialWriters)
      ensures forall k :: 0 <= k < |tasks| && k != j ==>
                tasks[k] == old(tasks[k]) && queues[k] == old(queues[k]) && received[k] == old(received[k])
      ensures queues[j].senderOpen == old(queues[j].senderOpen)
      ensures received[j] == old(received[j]) + [old(queues[j].buffer[0])]
      ensures |queues[j].buffer| < old(|queues[j].buffer|)
      ensures old(queues[j].buffer[0]).dataType == tasks[j].field.dataType ==>
                tasks[j].state.Receiving? && queues[j].buffer == old(queues[j].buffer[1..])
      ensures old(queues[j].buffer[0]).dataType != tasks[j].field.dataType ==>
                tasks[j].state.Panicked? && !queues[j].receiverOpen
    {
      var channel, task := TakeArray(j, queues[j], tasks[j], sent[j], received[j], initialWriters[j]);
      UpdateKeepsInv(queues, tasks, sent, received, initialWriters, j, channel, task, sent[j], received[j] + [queues[j].buffer[0]]);
      assert sent[j := sent[j]] == sent;
      received := received[j := received[j] + [queues[j].buffer[0]]];
      tasks, queues := tasks[j := task], queues[j := channel];
    }

    /** Sending an array on channel `j` and waiting: a send to a full channel
        waits until the task takes an array; a send succeeds, queueing `a`
        behind the arrays already there, exactly when the receiver still
        exists, and fails only once the task has panicked on an array of
        the wrong type. */
    method Send(j: nat, a: ColumnArray) returns (ok: bool)
      requires Valid() && j < |tasks| && queues[j].senderOpen
      modifies this
      ensures Valid() && SameTasks(old(tasks)) && initialWriters == old(initialWriters)
      ensures forall k :: 0 <= k < |tasks| && k != j ==>
                tasks[k] == old(tasks[k]) && queues[k] == old(queues[k]) && received[k] == old(received[k])
      ensures queues[j].senderOpen
      ensures ok <==> queues[j].receiverOpen
      ensures !old(queues[j].receiverOpen) ==> !ok
      ensures received[j] == if old(queues[j].receiverOpen && |queues[j].buffer| == ChannelCapacity)
                             then old(received[j]) + [old(queues[j].buffer[0])] else old(received[j])
      ensures ok ==> sent == old(sent)[j := old(sent[j]) + [a]]
      ensures !ok ==> sent == old(sent) && tasks[j].state.Panicked? && !AllMatch(tasks[j].field, sent[j])
    {
      assert ColumnValid(j, queues[j], tasks[j], sent[j], received[j], initialWriters[j]);
      if queues[j].receiverOpen && |queues[j].buffer| == ChannelCapacity {
        // the send waits for the task to take an array off the full channel
        ReceiveOne(j);
        assert ColumnValid(j, queues[j], tasks[j], sent[j], received[j], initialWriters[j]);
      }
      if !queues[j].receiverOpen {
        return false;
      }
      var channel := queues[j].(buffer := queues[j].buffer + [a]);
      SendKeepsColumnValid(j, queues[j], tasks[j], sent[j], received[j], initialWriters[j], a);
      UpdateKeepsInv(queues, tasks, sent, received, initialWriters, j, channel, tasks[j], sent[j] + [a], received[j]);
      assert tasks[j := tasks[j]] == tasks && received[j := received[j]] == received;
      queues := queues[j := channel];
      sent := sent[j := sent[j] + [a]];
      return true;
    }

    /** `encode_batch(batch)`: in column order, send column `j`'s array on
        channel `j` (the arrays are paired with the senders as `zip` pairs
        them, so the shorter of the two decides how many). When a send
        fails, the batch goes to no further column. `delivered` counts the
        columns that received the batch; every column is delivered when
        everything sent so far, and the batch, has the columns' types. */
    method EncodeBatch(batch: RecordBatch) returns (ghost delivered: nat)
      requires Valid() && SendersOpen()
      modifies this
      ensures Valid() && SendersOpen() && SameTasks(old(tasks)) && initialWriters == old(initialWriters)
      ensures delivered <= |batch.columns| && delivered <= |tasks|
      ensures forall j :: 0 <= j < delivered ==> sent[j] == old(sent[j]) + [batch.columns[j]]
      ensures forall j :: delivered <= j < |tasks| ==> sent[j] == old(sent[j])
      ensures delivered < |batch.columns| && delivered < |tasks| ==> tasks[delivered].state.Panicked?
      ensures old(WellTyped())
              && (forall j :: 0 <= j < |batch.columns| && j < |tasks| ==>
                    batch.columns[j].dataType == tasks[j].field.dataType)
              ==> WellTyped() && delivered == if |batch.columns| < |tasks| then |batch.columns| else |tasks|
      ensures old(TypeClash(tasks, sent, batch.columns)) ==> !WellTyped()
      ensures forall k :: 0 <= k < |batch.columns| && k < |tasks| && !old(queues[k].receiverOpen) ==> delivered <= k
    {
      ghost var tasks0, sent0 := tasks, sent;
      var n := if |batch.columns| < |queues| then |batch.columns| else |queues|;
      delivered := 0;
      for j := 0 to n
        invariant Valid() && SendersOpen() && SameTasks(old(tasks)) && initialWriters == old(initialWriters)
        invariant delivered == j
        invariant forall k :: 0 <= k < j ==> sent[k] == old(sent[k]) + [batch.columns[k]]
        invariant forall k :: j <= k < |tasks| ==> sent[k] == old(sent[k])
        invariant forall k :: j <= k < |tasks| ==> queues[k] == old(queues[k])
        invariant forall k :: 0 <= k < j ==> old(queues[k].receiverOpen)
      {
        var ok := Send(j, batch.columns[j]);
        if !ok {
          // the failure is reported on standard error and the batch goes no further
          if TypeClash(tasks0, sent0, batch.columns) {
            ClashAfterBatch(queues, tasks, sent, received, initialWriters, tasks0, sent0, batch.columns, delivered);
          }
          return;
        }
        delivered := j + 1;
      }
      if TypeClash(tasks0, sent0, batch.columns) {
        ClashAfterBatch(queues, tasks, sent, received, initialWriters, tasks0, sent0, batch.columns, delivered);
      }
    }

    /** The rest of column task `j` once its sender is gone: receive until
        the channel is empty, then close the writer, once, and complete
        with `(j, chunk)`. A task already ended is left as it is. */
    method FinishTask(j: nat)
      requires Valid() && j < |tasks| && !queues[j].senderOpen
      modifies this
      ensures Valid() && SameTasks(old(tasks))
      ensures sent == old(sent) && initialWriters == old(initialWriters)
      ensures forall k :: 0 <= k < |tasks| && k != j ==> tasks[k] == old(tasks[k]) && queues[k] == old(queues[k])
      ensures !queues[j].senderOpen && !tasks[j].state.Receiving?
      ensures !old(tasks[j].state.Receiving?) ==> tasks[j] == old(tasks[j])
      ensures AllMatch(tasks[j].field, sent[j]) ==> tasks[j].state.Completed?
    {
      while tasks[j].state.Receiving? && queues[j].buffer != []
        invariant Valid() && SameTasks(old(tasks)) && !queues[j].senderOpen
        invariant sent == old(sent) && initialWriters == old(initialWriters)
        invariant forall k :: 0 <= k < |tasks| && k != j ==> tasks[k] == old(tasks[k]) && queues[k] == old(queues[k])
        invariant !old(tasks[j].state.Receiving?) ==> tasks[j] == old(tasks[j])
        decreases |queues[j].buffer|
      {
        ReceiveOne(j);
      }
      assert ColumnValid(j, queues[j], tasks[j], sent[j], received[j], initialWriters[j]);
      if tasks[j].state.Receiving? {
        // the channel reports its end: close the writer and hand back the chunk
        var chunk := CloseWriter(tasks[j].writer);
        var task, channel := tasks[j].(state := Completed(chunk)), queues[j].(receiverOpen := false);
        CompleteKeepsColumnValid(j, queues[j], tasks[j], sent[j], received[j], initialWriters[j]);
        UpdateKeepsInv(queues, tasks, sent, received, initialWriters, j, channel, task, sent[j], received[j]);
        assert sent[j := sent[j]] == sent && received[j := received[j]] == received;
        tasks, queues := tasks[j := task], queues[j := channel];
        assert ColumnValid(j, queues[j], tasks[j], sent[j], received[j], initialWriters[j]);
      }
    }

    /** Dropping every sender, and what follows in the tasks: every task
        drains its channel and, unless it panicked, completes. */
    method FinishAll()
      requires Valid()
      modifies this
      ensures Valid() && SameTasks(old(tasks))
      ensures sent == old(sent) && initialWriters == old(initialWriters)
      ensures forall j :: 0 <= j < |tasks| ==> !queues[j].senderOpen && !tasks[j].state.Receiving?
      ensures forall j :: 0 <= j < |tasks| && AllMatch(tasks[j].field, sent[j]) ==> tasks[j].state.Completed?
    {
      DropSendersKeepsInv(queues, tasks, sent, received, initialWriters);
      queues := DropSenders(queues);
      // the tasks are independent, so finishing them one after another
      // gives each the result it reaches when they run concurrently
      for j := 0 to |tasks|
        invariant Valid() && SameTasks(old(tasks))
        invariant sent == old(sent) && initialWriters == old(initialWriters)
        invariant forall k :: 0 <= k < |tasks| ==> !queues[k].senderOpen
        invariant forall k :: 0 <= k < j ==> !tasks[k].state.Receiving?
        invariant forall k :: 0 <= k < j && AllMatch(tasks[k].field, sent[k]) ==> tasks[k].state.Completed?
      {
        FinishTask(j);
      }
    }

    /** `join_set.join_all()` once every task has ended: the tasks'
        `(column_index, chunk)` pairs in the order they complete,
        `completionOrder`; the panic of the first panicked task met is
        re-raised instead. */
    method JoinAll(completionOrder: seq<nat>) returns (r: Result<seq<(nat, ColumnChunk)>, CloseError>)
      requires IsPermutationOf(completionOrder, |tasks|)
      requires forall j :: 0 <= j < |tasks| ==> !tasks[j].state.Receiving?
      ensures r.Ok? <==> forall j :: 0 <= j < |tasks| ==> tasks[j].state.Completed?
      ensures r.Ok? ==> |r.value| == |completionOrder|
      ensures r.Ok? ==> forall k :: 0 <= k < |completionOrder| ==>
                completionOrder[k] < |tasks| && tasks[completionOrder[k]].state.Completed?
                && r.value[k] == (tasks[completionOrder[k]].index, tasks[completionOrder[k]].state.chunk)
      ensures r.Err? ==>
                exists k :: 0 <= k < |completionOrder| && r.error == TaskPanicked(completionOrder[k])
                  && completionOrder[k] < |tasks| && tasks[completionOrder[k]].state.Panicked?
                  && (forall i :: 0 <= i < k ==>
                        completionOrder[i] < |tasks| && tasks[completionOrder[i]].state.Completed?)
    {
      PermutationCovers(completionOrder, |tasks|);
      var completedColumns: seq<(nat, ColumnChunk)> := [];
      for k := 0 to |completionOrder|
        invariant |completedColumns| == k
        invariant forall i :: 0 <= i < k ==>
                    tasks[completionOrder[i]].state.Completed?
                    && completedColumns[i] == (tasks[completionOrder[i]].index, tasks[completionOrder[i]].state.chunk)
      {
        var j := completionOrder[k];
        if !tasks[j].state.Completed? {
          r := Err(TaskPanicked(j));
          return;
        }
        completedColumns := completedColumns + [(tasks[j].index, tasks[j].state.chunk)];
      }
      forall j | 0 <= j < |tasks| ensures tasks[j].state.Completed? {
        assert j in completionOrder;
        var k :| 0 <= k < |completionOrder| && completionOrder[k] == j;
      }
      r := Ok(completedColumns);
    }

    /** What `close()` does once every task has ended: `join_all` (the
        tasks completing in `completionOrder`), sort the
        `(column_index, chunk)` pairs by column index and keep the chunks.
        The result holds, at position `j`, the chunk of task `j`. */
    method CollectInOrder(completionOrder: seq<nat>) returns (r: Result<seq<ColumnChunk>, CloseError>)
      requires Valid() && IsPermutationOf(completionOrder, |tasks|)
      requires forall j :: 0 <= j < |tasks| ==> !tasks[j].state.Receiving?
      ensures r.Ok? <==> forall j :: 0 <= j < |tasks| ==> tasks[j].state.Completed?
      ensures r.Ok? ==> |r.value| == |tasks|
      ensures r.Ok? ==> forall j :: 0 <= j < |tasks| ==> r.value[j] == tasks[j].state.chunk
      ensures r.Err? ==>
                exists k :: 0 <= k < |completionOrder| && r.error == TaskPanicked(completionOrder[k])
                  && completionOrder[k] < |tasks| && tasks[completionOrder[k]].state.Panicked?
                  && (forall i :: 0 <= i < k ==>
                        completionOrder[i] < |tasks| && tasks[completionOrder[i]].state.Completed?)
    {
      var joined := JoinAll(completionOrder);
      if joined.Err? {
        return Err(joined.error);
      }
      var completedColumns := joined.value;
      var n := |tasks|;
      forall j | 0 <= j < n ensures tasks[j].index == j {
        assert ColumnValid(j, queues[j], tasks[j], sent[j], received[j], initialWriters[j]);
      }
      ghost var inOrder := TaskPairs(tasks);
      PermutationCovers(completionOrder, n);
      assert completedColumns == Pick(inOrder, completionOrder);
      PickPermutation(inOrder, completionOrder, Range(n));
      assert Pick(inOrder, Range(n)) == inOrder;
      // sort the completed pairs in place by their column index
      var sorted := new (nat, ColumnChunk)[n](i requires 0 <= i < n => completedColumns[i]);
      assert sorted[..] == completedColumns;
      SortByColumnIndex(sorted);
      SortedPermutationIsColumnOrder(sorted[..], inOrder);
      r := Ok(seq(n, i requires 0 <= i < n reads sorted => sorted[i].1));
      forall j | 0 <= j < n ensures r.value[j] == tasks[j].state.chunk {
        assert sorted[..][j] == inOrder[j];
      }
    }

    /** `close()`: drop every sender and wait for every task (`join_all`,
        its tasks completing in `completionOrder`); sort the
        `(column_index, chunk)` pairs by column index and return the
        chunks. The result lists column `j`'s chunk at position `j`: the
        chunk its writer makes from every array sent to it. */
    method Close(completionOrder: seq<nat>) returns (r: Result<seq<ColumnChunk>, CloseError>)
      requires Valid()
      requires IsPermutationOf(completionOrder, |tasks|)
      modifies this
      ensures Valid() && SameTasks(old(tasks))
      ensures sent == old(sent) && initialWriters == old(initialWriters)
      ensures forall j :: 0 <= j < |tasks| ==> !queues[j].senderOpen && !tasks[j].state.Receiving?
      ensures forall j :: 0 <= j < |tasks| && AllMatch(tasks[j].field, sent[j]) ==> tasks[j].state.Completed?
      ensures r.Ok? <==> forall j :: 0 <= j < |tasks| ==> tasks[j].state.Completed?
      ensures WellTyped() == old(WellTyped()) && (r.Ok? <==> WellTyped())
      ensures r.Ok? ==> |r.value| == |tasks|
      ensures r.Ok? ==> forall j {:trigger r.value[j]} :: 0 <= j < |tasks| ==>
                AllMatch(tasks[j].field, sent[j])
                && r.value[j] == ExpectedChunk(initialWriters[j], tasks[j].field, sent[j])
      ensures r.Err? ==>
                exists k :: 0 <= k < |completionOrder| && r.error == TaskPanicked(completionOrder[k])
                  && completionOrder[k] < |tasks| && tasks[completionOrder[k]].state.Panicked?
                  && (forall i :: 0 <= i < k ==>
                        completionOrder[i] < |tasks| && tasks[completionOrder[i]].state.Completed?)
    {
      FinishAll();
      r := CollectInOrder(completionOrder);
      if r.Ok? {
        forall j | 0 <= j < |tasks|
          ensures AllMatch(tasks[j].field, sent[j]) && r.value[j] == ExpectedChunk(initialWriters[j], tasks[j].field, sent[j])
        {
          assert ColumnValid(j, queues[j], tasks[j], sent[j], received[j], initialWriters[j]);
        }
      }
      assert WellTyped() == old(WellTyped()) by {
        assert forall j :: 0 <= j < |tasks| ==> tasks[j].field == old(tasks[j].field);
      }
    }
  }
}

=== FILE: spec_builder.dfy ===
/** `ParquetFileSpecBuilder` and the `ParquetFileSpec` it builds
    (src/parquet_file.rs): the parameters of one generated file. */
module SpecBuilder {
  import opened Wrappers
  import opened FileTypes
  import Decimal

  /** The parameters of one generated file. Paths are plain strings. */
  datatype ParquetFileSpec = ParquetFileSpec(
    path: string,
    fileType: FileType,
    columns: nat,
    rowGroups: nat,
    rowsPerRowGroup: nat)

  /** The builder: every parameter optional until `build`. */
  datatype ParquetFileSpecBuilder = ParquetFileSpecBuilder(
    path: Option<string>,
    fileType: Option<FileType>,
    columns: Option<nat>,
    rowGroups: Option<nat>,
    rowsPerRowGroup: Option<nat>)

  /** The `expect` that fails in `build`, one per missing parameter. */
  datatype BuildError =
    | PathRequired
    | FileTypeRequired
    | ColumnsRequired
    | RowGroupsRequired
    | RowsPerRowGroupRequired

  /** `ParquetFileSpecBuilder::new()`: the default builder, nothing set. */
  function NewBuilder(): (b: ParquetFileSpecBuilder)
    ensures b.path.None? && b.fileType.None? && b.columns.None?
    ensures b.rowGroups.None? && b.rowsPerRowGroup.None?
  {
    ParquetFileSpecBuilder(None, None, None, None, None)
  }

  /** `with_path`: sets the path and nothing else. */
  function WithPath(b: ParquetFileSpecBuilder, path: string): (r: ParquetFileSpecBuilder)
    ensures r.path == Some(path)
    ensures r.fileType == b.fileType && r.columns == b.columns
    ensures r.rowGroups == b.rowGroups && r.rowsPerRowGroup == b.rowsPerRowGroup
  {
    b.(path := Some(path))
  }

  /** `with_file_type`: sets the file type and nothing else. */
  function WithFileType(b: ParquetFileSpecBuilder, fileType: FileType): (r: ParquetFileSpecBuilder)
    ensures r.fileType == Some(fileType)
    ensures r.path == b.path && r.columns == b.columns
    ensures r.rowGroups == b.rowGroups && r.rowsPerRowGroup == b.rowsPerRowGroup
  {
    b.(fileType := Some(fileType))
  }

  /** `with_columns`: sets the column count and nothing else. */
  function WithColumns(b: ParquetFileSpecBuilder, columns: nat): (r: ParquetFileSpecBuilder)
    ensures r.columns == Some(columns)
    ensures r.path == b.path && r.fileType == b.fileType
    ensures r.rowGroups == b.rowGroups && r.rowsPerRowGroup == b.rowsPerRowGroup
  {
    b.(columns := Some(columns))
  }

  /** `with_row_groups`: sets the row-group count and nothing else. */
  function WithRowGroups(b: ParquetFileSpecBuilder, rowGroups: nat): (r: ParquetFileSpecBuilder)
    ensures r.rowGroups == Some(rowGroups)
    ensures r.path == b.path && r.fileType == b.fileType
    ensures r.columns == b.columns && r.rowsPerRowGroup == b.rowsPerRowGroup
  {
    b.(rowGroups := Some(rowGroups))
  }

  /** `with_rows_per_row_group`: sets the rows per row group and nothing else. */
  function WithRowsPerRowGroup(b: ParquetFileSpecBuilder, rowsPerRowGroup: nat): (r: ParquetFileSpecBuilder)
    ensures r.rowsPerRowGroup == Some(rowsPerRowGroup)
    ensures r.path == b.path && r.fileType == b.fileType
    ensures r.columns == b.columns && r.rowGroups == b.rowGroups
  {
    b.(rowsPerRowGroup := Some(rowsPerRowGroup))
  }

  /** `build`: the spec when all five parameters are set; otherwise the
      `expect` of the first missing one, in declaration order, fails. */
  function Build(b: ParquetFileSpecBuilder): (r: Result<ParquetFileSpec, BuildError>)
    ensures r.Ok? <==>
              b.path.Some? && b.fileType.Some? && b.columns.Some? && b.rowGroups.Some? && b.rowsPerRowGroup.Some?
    ensures r.Ok? ==>
              && r.value.path == b.path.value && r.value.fileType == b.fileType.value
              && r.value.columns == b.columns.value && r.value.rowGroups == b.rowGroups.value
              && r.value.rowsPerRowGroup == b.rowsPerRowGroup.value
    ensures b.path.None? ==> r == Err(PathRequired)
    ensures b.path.Some? && b.fileType.None? ==> r == Err(FileTypeRequired)
    ensures b.path.Some? && b.fileType.Some? && b.columns.None? ==> r == Err(ColumnsRequired)
    ensures b.path.Some? && b.fileType.Some? && b.columns.Some? && b.rowGroups.None? ==> r == Err(RowGroupsRequired)
    ensures b.path.Some? && b.fileType.Some? && b.columns.Some? && b.rowGroups.Some? && b.rowsPerRowGroup.None? ==>
              r == Err(RowsPerRowGroupRequired)
  {
    if b.path.None? then Err(PathRequired)
    else if b.fileType.None? then Err(FileTypeRequired)
    else if b.columns.None? then Err(ColumnsRequired)
    else if b.rowGroups.None? then Err(RowGroupsRequired)
    else if b.rowsPerRowGroup.None? then Err(RowsPerRowGroupRequired)
    else Ok(ParquetFileSpec(b.path.value, b.fileType.value, b.columns.value, b.rowGroups.value, b.rowsPerRowGroup.value))
  }

  /** Whatever builder one starts from, setting all five parameters builds
      exactly the spec made of them. */
  lemma BuildAfterAllSetters(b: ParquetFileSpecBuilder, path: string, fileType: FileType,
                             columns: nat, rowGroups: nat, rowsPerRowGroup: nat)
    ensures Build(WithRowsPerRowGroup(WithRowGroups(WithColumns(WithFileType(WithPath(b, path),
              fileType), columns), rowGroups), rowsPerRowGroup))
            == Ok(ParquetFileSpec(path, fileType, columns, rowGroups, rowsPerRowGroup))
  {
  }

  /** Setters of different parameters commute: every one of the ten pairs. */
  lemma SettersCommute(b: ParquetFileSpecBuilder, path: string, fileType: FileType, columns: nat,
                       rowGroups: nat, rowsPerRowGroup: nat)
    ensures WithFileType(WithPath(b, path), fileType) == WithPath(WithFileType(b, fileType), path)
    ensures WithColumns(WithPath(b, path), columns) == WithPath(WithColumns(b, columns), path)
    ensures WithRowGroups(WithPath(b, path), rowGroups) == WithPath(WithRowGroups(b, rowGroups), path)
    ensures WithRowsPerRowGroup(WithPath(b, path), rowsPerRowGroup)
            == WithPath(WithRowsPerRowGroup(b, rowsPerRowGroup), path)
    ensures WithColumns(WithFileType(b, fileType), columns) == WithFileType(WithColumns(b, columns), fileType)
    ensures WithRowGroups(WithFileType(b, fileType), rowGroups)
            == WithFileType(WithRowGroups(b, rowGroups), fileType)
    ensures WithRowsPerRowGroup(WithFileType(b, fileType), rowsPerRowGroup)
            == WithFileType(WithRowsPerRowGroup(b, rowsPerRowGroup), fileType)
    ensures WithRowGroups(WithColumns(b, columns), rowGroups) == WithColumns(WithRowGroups(b, rowGroups), columns)
    ensures WithRowsPerRowGroup(WithColumns(b, columns), rowsPerRowGroup)
            == WithColumns(WithRowsPerRowGroup(b, rowsPerRowGroup), columns)
    ensures WithRowsPerRowGroup(WithRowGroups(b, rowGroups), rowsPerRowGroup)
            == WithRowGroups(WithRowsPerRowGroup(b, rowsPerRowGroup), rowGroups)
  {
  }

  /** A later setter of a parameter overrides an earlier one of the same
      parameter: every one of the five setters. */
  lemma SettersOverride(b: ParquetFileSpecBuilder, path: string, path': string, fileType: FileType,
                        fileType': FileType, columns: nat, columns': nat, rowGroups: nat, rowGroups': nat,
                        rowsPerRowGroup: nat, rowsPerRowGroup': nat)
    ensures WithPath(WithPath(b, path'), path) == WithPath(b, path)
    ensures WithFileType(WithFileType(b, fileType'), fileType) == WithFileType(b, fileType)
    ensures WithColumns(WithColumns(b, columns'), columns) == WithColumns(b, columns)
    ensures WithRowGroups(WithRowGroups(b, rowGroups'), rowGroups) == WithRowGroups(b, rowGroups)
    ensures WithRowsPerRowGroup(WithRowsPerRowGroup(b, rowsPerRowGroup'), rowsPerRowGroup)
            == WithRowsPerRowGroup(b, rowsPerRowGroup)
  {
  }

  /** `impl Display for ParquetFileSpec`: `" {:?} {} cols {} row groups"`,
      the file type's Debug name, the column count and the row-group count. */
  function Describe(spec: ParquetFileSpec): (s: string)
    ensures |s| > 12 && s[0] == ' ' && s[|s| - 11..] == " row groups"
    ensures s[1..1 + |DebugName(spec.fileType)|] == DebugName(spec.fileType)
  {
    " " + (DebugName(spec.fileType) + (" " + (Decimal.NatToDecimal(spec.columns)
      + (" cols " + (Decimal.NatToDecimal(spec.rowGroups) + " row groups")))))
  }

  /** Length of the run of digits that starts `s`. */
  function DigitRun(s: string): (n: nat)
    ensures n <= |s| && Decimal.AllDigits(s[..n])
    ensures n < |s| ==> !Decimal.IsDigit(s[n])
  {
    if s == [] || !Decimal.IsDigit(s[0]) then 0
    else
      var n := 1 + DigitRun(s[1..]);
      assert s[..n] == [s[0]] + s[1..][..n - 1];
      n
  }

  lemma {:induction false} DigitRunOf(d: string, rest: string)
    requires Decimal.AllDigits(d)
    requires rest != [] && !Decimal.IsDigit(rest[0])
    ensures DigitRun(d + rest) == |d|
    decreases |d|
  {
    if d != [] {
      var s := d + rest;
      assert s[0] == d[0] && Decimal.IsDigit(d[0]);
      assert s[1..] == d[1..] + rest;
      DigitRunOf(d[1..], rest);
      assert DigitRun(s) == 1 + DigitRun(s[1..]);
    } else {
      assert d + rest == rest;
    }
  }

  /** A run of digits followed by a non-digit splits off uniquely. */
  lemma DigitsThenRest(d1: string, r1: string, d2: string, r2: string)
    requires Decimal.AllDigits(d1) && Decimal.AllDigits(d2)
    requires r1 != [] && !Decimal.IsDigit(r1[0]) && r2 != [] && !Decimal.IsDigit(r2[0])
    requires d1 + r1 == d2 + r2
    ensures d1 == d2 && r1 == r2
  {
    DigitRunOf(d1, r1);
    DigitRunOf(d2, r2);
    assert d1 == (d1 + r1)[..|d1|];
    assert d2 == (d2 + r2)[..|d2|];
    assert r1 == (d1 + r1)[|d1|..];
    assert r2 == (d2 + r2)[|d2|..];
  }

  lemma CancelPrefix(p: string, x: string, y: string)
    requires p + x == p + y
    ensures x == y
  {
    assert x == (p + x)[|p|..];
    assert y == (p + y)[|p|..];
  }

  lemma CancelSuffix(x: string, y: string, q: string)
    requires x + q == y + q
    ensures x == y
  {
    assert x == (x + q)[..|x|];
    assert y == (y + q)[..|y|];
  }

  /** Specs that differ in file type, column count or row-group count are
      described differently (the description labels benchmark results). */
  lemma DescribeInjective(a: ParquetFileSpec, b: ParquetFileSpec)
    requires Describe(a) == Describe(b)
    ensures a.fileType == b.fileType && a.columns == b.columns && a.rowGroups == b.rowGroups
  {
    assert Describe(a)[1] == DebugName(a.fileType)[0];
    assert Describe(b)[1] == DebugName(b.fileType)[0];
    var name := DebugName(a.fileType);
    var ca, cb := Decimal.NatToDecimal(a.columns), Decimal.NatToDecimal(b.columns);
    var ra, rb := Decimal.NatToDecimal(a.rowGroups), Decimal.NatToDecimal(b.rowGroups);
    var ta, tb := " cols " + (ra + " row groups"), " cols " + (rb + " row groups");
    CancelPrefix(" ", name + (" " + (ca + ta)), name + (" " + (cb + tb)));
    CancelPrefix(name, " " + (ca + ta), " " + (cb + tb));
    CancelPrefix(" ", ca + ta, cb + tb);
    DigitsThenRest(ca, ta, cb, tb);
    Decimal.NatToDecimalInjective(a.columns, b.columns);
    CancelPrefix(" cols ", ra + " row groups", rb + " row groups");
    CancelSuffix(ra, rb, " row groups");
    Decimal.NatToDecimalInjective(a.rowGroups, b.rowGroups);
  }
}

=== FILE: wrappers.dfy ===
/** Option and Result, the shapes of Rust's `Option<T>` and `Result<T, E>`. */
module Wrappers {

  datatype Option<+T> = None | Some(value: T)

  /** `Err` stands for an error return, or for the panic that an `unwrap`/`expect`
      on that error would raise in the modelled code. */
  datatype Result<+T, +E> = Ok(value: T) | Err(error: E)
}
